=== FILE: README.md ===
# AlloCare Nexus: poverty scoring engine and simulation store

This project models the decision logic of AlloCare Nexus, a community
poverty-alleviation simulator, in Dafny. The model has two parts.

- **The poverty scoring engine** (module `Engine`, `engine.dfy`). It
  computes each household's poverty index and credit-deficit ratio, the
  community resilience score, the bid allocation score, the colour and
  label bands, and the time-to-exit estimate. It also recomputes derived
  fields, builds the undirected edge list of the household network (a
  method with the source's nested loops), and holds the seed community and
  tasks.
- **The simulation store** (module `Store`, `store.dfy`). The class
  `AllocareStore` holds the households, tasks, transfers, trend points,
  system logs, the cycle counter, the AI-redistribution and emergency-fund
  flags, the cumulative metrics and the CECS (community engagement) jobs.
  Each store action is one method. Each method states its whole new state
  in terms of the value-level rules of module `Ledger` (`ledger.dfy`): the
  emergency floor pass (a method with a loop), credit moves, labor
  tokenization, bid placement, shock selection, the redistribution advisor,
  the per-cycle drift and statistics, and the job updates. The invariant
  `Valid()` is kept by every action that touches households, transfers,
  trend points, the cycle, the cumulative reduction or tasks. It says:
  - the population is non-empty, with unique ids and up-to-date derived
    fields;
  - labor hours are never negative;
  - at most 50 transfers and 20 trend points are kept;
  - the cycle counter is at least 1;
  - the cumulative reduction is never negative;
  - every task holds at most one bid per household.

`types.dfy` (module `Types`) mirrors the record shapes. `seqs.dfy` (module
`Seqs`) holds the list idioms the source uses:
- `find`;
- "filter, then stable descending sort, then take the head";
- `slice(0, n)` and `slice(-n)`.

Credits, hours and scores are exact reals. `Math.floor` is `.Floor`,
`Math.ceil` is `Ceil` and `Math.round` is `Round`, that is
`(x + 0.5).Floor`. Log entries keep their type and household id only.

The source's quirks are reproduced, not corrected, and each one is
exhibited by a lemma:
- a self-transfer only debits (`SelfTransferOnlyDebits`);
- no floor pass follows an automatic redistribution, so a redistribution
  of either size can leave the donor below the floor
  (`RedistributionCanBreachFloor` applies the plans to a two-household
  list directly);
- in the non-AI branch of a shock, the advice is computed on the
  pre-shock households (`AdviceUsesPreShockState`);
- the exit flag and the celebration log use different thresholds
  (`CelebrationWithoutExitFlag`);
- a cycle compares the rounded previous rate with the unrounded current
  rate (`RoundedRateComparison`).

## Model

Source paths are relative to the repository root.

| member | source | states |
|---|---|---|
| Seqs.FirstMax | allocare-nexus/src/store/allocareStore.ts:371-376 | The head of a filter followed by a stable descending sort: it is absent exactly when nothing qualifies. Otherwise it qualifies, has a maximal key, and every earlier qualifying element has a strictly smaller key. |
| Seqs.Take | allocare-nexus/src/store/allocareStore.ts:357-358 | `slice(0, n)` is a prefix of length `min(n, |s|)` and is the whole list when that is short enough. |
| Seqs.LastN | allocare-nexus/src/store/allocareStore.ts:579 | `slice(-n)` is the suffix of length `min(n, |s|)`. |
| Engine.CreditDeficitRatio | allocare-nexus/src/utils/povertyEngine.ts:10 | The ratio is 0 when credits are at least 100. Below 100 it is exactly `(100 - credits) / 100`. It lies in [0, 1] for non-negative credits. |
| Engine.ComputePovertyIndex | allocare-nexus/src/utils/povertyEngine.ts:9-20 | The index is in [0, 1] whatever the risk inputs are. The returned deficit ratio is the credit-deficit ratio of the credits. |
| Engine.UnclampedForInRangeInputs | allocare-nexus/src/utils/povertyEngine.ts:11-17 | For risk inputs in [0, 1] and non-negative credits, the clamp never fires: the index is the plain 0.4/0.2/0.2/0.2 weighted sum. |
| Engine.ScoresDependOnRiskFieldsOnly | allocare-nexus/src/utils/povertyEngine.ts:9-20 | Two records that agree on credits and the three risk factors get the same scores, so the function is deterministic in exactly those inputs. |
| Engine.PovertyIndexAntitoneInCredits | allocare-nexus/src/utils/povertyEngine.ts:9-20 | With other fields fixed, more credits never raise the index or the deficit ratio. |
| Engine.Recalc | allocare-nexus/src/utils/povertyEngine.ts:165-168 | The recomputed record has fresh derived fields and keeps every other field. An already fresh record is returned unchanged. |
| Engine.InitializeHouseholds | allocare-nexus/src/utils/povertyEngine.ts:164-169 | Length and order are kept. Every non-derived field is kept, and every derived field agrees with `computePovertyIndex`. |
| Engine.InitializeHouseholdsIdempotent | allocare-nexus/src/utils/povertyEngine.ts:164-169 | Recomputing twice gives the same list as recomputing once. |
| Engine.SumPovertyIndexBounds | allocare-nexus/src/utils/povertyEngine.ts:24 | With every index in [0, 1], the sum of indices lies in [0, n]. |
| Engine.ResilienceFromMean | allocare-nexus/src/utils/povertyEngine.ts:25 | `max(0, round(100 - 100 * mean))` is at least 0, and at most 100 for a mean in [0, 1]. |
| Engine.ResilienceAntitoneInMean | allocare-nexus/src/utils/povertyEngine.ts:25 | A higher mean never gives a higher score. |
| Engine.ComputeResilienceScore | allocare-nexus/src/utils/povertyEngine.ts:22-26 | The score is 100 for an empty community and never negative. It is at most 100 when every index is in [0, 1]. Otherwise it is the score of the mean index. |
| Engine.ResilienceAntitone | allocare-nexus/src/utils/povertyEngine.ts:22-26 | Of two non-empty communities, the one with the higher mean index has the lower or equal score. |
| Engine.ComputeAllocationScore | allocare-nexus/src/utils/povertyEngine.ts:28-31 | At or above the 200 cap the bid term is saturated. For a bid of at least 0 and centrality and index in [0, 1], the score is in [0, 1]. |
| Engine.AllocationScoreSaturates | allocare-nexus/src/utils/povertyEngine.ts:28-31 | Any two bids of at least 200 score the same. |
| Engine.GetPovertyColor | allocare-nexus/src/utils/povertyEngine.ts:42-46 | Green iff the index is below 0.3, yellow iff it is in [0.3, 0.6), red iff it is at least 0.6. |
| Engine.GetPovertyLabel | allocare-nexus/src/utils/povertyEngine.ts:48-53 | The labels partition the index line at 0.3, 0.6 and 0.75, each label holding iff the index lies in its band. |
| Engine.ColorAgreesWithLabel | allocare-nexus/src/utils/povertyEngine.ts:42-53 | Green is exactly "Stable" and yellow exactly "Vulnerable". Red is "High Risk" or "Extreme Poverty". |
| Engine.WeeksBounds | allocare-nexus/src/utils/povertyEngine.ts:36 | `ceil(needed / 10)` is the least whole number of 10-credit weeks that covers a positive need. |
| Engine.MonthsBounds | allocare-nexus/src/utils/povertyEngine.ts:39 | For more than four weeks, `ceil(weeks / 4)` is at least 2 and is the least number of 40-credit months that covers the need. |
| Engine.ComputeTimeToExitPoverty | allocare-nexus/src/utils/povertyEngine.ts:33-40 | "Already stable" iff the index is below 0.3. "< 1 week" iff the index is at least 0.3 and credits are at least 100. Otherwise the result is 1-4 weeks, the least that cover the need at 10 a week, or at least 2 months, the least that cover it at 40 a month. |
| Engine.TimeToExitText | allocare-nexus/src/utils/povertyEngine.ts:33-40 | The text is "Already stable" or "< 1 week" exactly under the conditions of the estimate. Otherwise it is the decimal count followed by " week" (one week), " weeks" (2-4) or " months". |
| Engine.NatToString | allocare-nexus/src/utils/povertyEngine.ts:38-39 | The text of a count is non-empty, made of decimal digits only, has no leading zero except for 0 itself, and reads back as the count (`DigitsValue`). |
| Engine.LexLeTotal | allocare-nexus/src/utils/povertyEngine.ts:176 | The string order used by `sort()` is total. |
| Engine.LexLeAntisymmetric | allocare-nexus/src/utils/povertyEngine.ts:176 | The string order used by `sort()` is antisymmetric. |
| Engine.EdgeKeySorted | allocare-nexus/src/utils/povertyEngine.ts:176 | The key of a pair is the two ids in sorted order joined by '-'. |
| Engine.EdgeKeySymmetric | allocare-nexus/src/utils/povertyEngine.ts:176 | The sorted-and-joined key of a pair does not depend on the order of the pair. |
| Engine.SamePairSameKey | allocare-nexus/src/utils/povertyEngine.ts:176 | Equal unordered pairs have equal keys. |
| Engine.DistinctKeysDistinctPairs | allocare-nexus/src/utils/povertyEngine.ts:176-179 | Edges with pairwise distinct keys have pairwise distinct unordered endpoint pairs. |
| Engine.AddEdge | allocare-nexus/src/utils/povertyEngine.ts:177-179 | Adding an unseen key's edge keeps the edge list and `seen` in step: the keys are exactly `seen`, there are no repeats, and every edge comes from a connection list. |
| Engine.AddConnections | allocare-nexus/src/utils/povertyEngine.ts:175-181 | The inner loop keeps that invariant, only grows `seen`, and puts every connection's key of the household into `seen`. |
| Engine.GetNetworkEdges | allocare-nexus/src/utils/povertyEngine.ts:171-184 | Every edge has strength 0.5 and comes from some household's connections. No key repeats, so each unordered pair appears at most once. Every connection is covered by an edge with its key. |
| Engine.SeedScenarioFatima | allocare-nexus/src/utils/povertyEngine.ts:113-125 | The fifth seed household has deficit 0.85 and index 0.88, above the 0.75 extreme threshold. |
| Engine.InitialIndices | allocare-nexus/src/utils/povertyEngine.ts:55-126 | The seed indices are 0.67, 0.15, 0.79, 0.33 and 0.88, and the community resilience is 44. |
| Ledger.HouseholdIndex | allocare-nexus/src/store/allocareStore.ts:268 | `find` by id: absent iff no household has the id. Otherwise it is the first position holding it. |
| Ledger.TaskIndex | allocare-nexus/src/store/allocareStore.ts:269 | `find` by task id, with the same first-match meaning. |
| Ledger.JobIndex | allocare-nexus/src/store/allocareStore.ts:165 | `find` by job id, with the same first-match meaning. |
| Ledger.RecalcSettles | allocare-nexus/src/store/allocareStore.ts:73-78 | `recalcHouseholds` turns a list with unique ids and non-negative labor hours into one whose derived fields are all up to date. |
| Ledger.InitialSettled | allocare-nexus/src/store/allocareStore.ts:99 | The initialized seed community has unique ids and up-to-date derived fields. |
| Ledger.FloorCredits | allocare-nexus/src/store/allocareStore.ts:83-91 | Credits below 60 become exactly 60; other credits are kept. The result is at least 60. |
| Ledger.FloorAllShape | allocare-nexus/src/store/allocareStore.ts:80-95 | After the floor pass every household holds at least 60. Households at or above 60 are unchanged, and raised households hold exactly 60 with every other field kept. |
| Ledger.StabilizationLogsShape | allocare-nexus/src/store/allocareStore.ts:83-88 | Exactly one `stabilization` entry per household below 60, each naming such a household. No household is below 60 iff there are no entries. |
| Ledger.RaisedHouseholdsNamed | allocare-nexus/src/store/allocareStore.ts:83-88 | Conversely, every household below 60 is named by some `stabilization` entry. |
| Ledger.ApplyEmergencyFloor | allocare-nexus/src/store/allocareStore.ts:80-95 | The loop returns the floored households and the logs extended by one entry per raised household. `activated` holds iff some household was below 60. Together with `StabilizationLogsShape` and `RaisedHouseholdsNamed`, the entries name exactly the raised households. |
| Ledger.FloorAllIdentity | allocare-nexus/src/store/allocareStore.ts:80-95 | When nobody is below the floor the pass changes nothing. |
| Ledger.Stabilize | allocare-nexus/src/store/allocareStore.ts:330-331 | The floor pass followed by recomputation keeps the length, leaves everyone at or above 60, and settles a consistent list. |
| Ledger.StabilizeShape | allocare-nexus/src/store/allocareStore.ts:330-331 | Each household's credits are floored and every other input field is kept. |
| Ledger.StabilizeConserves | allocare-nexus/src/store/allocareStore.ts:330-331 | With nobody below the floor, total credits are unchanged. |
| Ledger.MoveCredits | allocare-nexus/src/store/allocareStore.ts:324-328 | A credit move keeps the length, unique ids and non-negative labor hours. |
| Ledger.MoveCreditsTotal | allocare-nexus/src/store/allocareStore.ts:324-328 | The total changes by `amount` per receiver minus `amount` per sender, and by nothing else. A self-transfer only debits. |
| Ledger.TransferMovesCredits | allocare-nexus/src/store/allocareStore.ts:324-328 | Between distinct present households, the sender loses `amount`, the receiver gains it, and all other households and all other fields are untouched. |
| Ledger.MoveCreditsConserves | allocare-nexus/src/store/allocareStore.ts:324-328 | Between distinct households present once each, the move conserves total credits. |
| Ledger.TransferConserves | allocare-nexus/src/store/allocareStore.ts:324-331 | When the floor pass raises nobody, a transfer between distinct households conserves the total through the floor pass and the recomputation. |
| Ledger.SelfTransferOnlyDebits | allocare-nexus/src/store/allocareStore.ts:325 | A self-transfer debits the household by `amount`, and the total falls by `amount`. |
| Ledger.TokenizedHousehold | allocare-nexus/src/store/allocareStore.ts:229-251 | Credits rise by exactly 10 per hour. Labor hours become `max(0, hours - h)` and are never negative. The derived fields are fresh. The exit flag holds iff the index was above 0.75 before and is below 0.6 after. No other field changes. |
| Ledger.Tokenize | allocare-nexus/src/store/allocareStore.ts:226-258 | Tokenizing keeps the length, unique ids and non-negative labor hours. |
| Ledger.TokenizeThenFloor | allocare-nexus/src/store/allocareStore.ts:226-258 | After tokenizing and the floor pass, ids are kept. The tokenizing household's credits are its old credits plus 10 per hour, floored; the others' are their old credits, floored. Every household holds at least 60. |
| Ledger.LaborLogsNameId | allocare-nexus/src/store/allocareStore.ts:234-249 | Every labor-step entry names the tokenizing household, and there are none when it is missing. |
| Ledger.LaborLogsOfPresent | allocare-nexus/src/store/allocareStore.ts:234-249 | For a present household the entries are one `labor` entry, followed by one `info` entry exactly when the household leaves extreme poverty. |
| Ledger.CelebrationWithoutExitFlag | allocare-nexus/src/store/allocareStore.ts:233-251 | A household can be celebrated for leaving extreme poverty while its exit flag stays false. |
| Ledger.WithoutBidsOf | allocare-nexus/src/store/allocareStore.ts:277 | The filter keeps exactly the bids of other households. |
| Ledger.WithoutBidsOfUnique | allocare-nexus/src/store/allocareStore.ts:277 | Filtering keeps bids unique per household. |
| Ledger.PlaceBid | allocare-nexus/src/store/allocareStore.ts:277-292 | The new bid is last and the bidder has no other bid. The other households' bids are kept, and bids stay unique per household. Under an equity override the task is allocated to the bidder with the override flag set; otherwise status, allocation and flag are kept. No other task field changes. |
| Ledger.ReplaceTask | allocare-nexus/src/store/allocareStore.ts:310 | The task list keeps its length. |
| Ledger.BidTouchesOneTask | allocare-nexus/src/store/allocareStore.ts:277-310 | A bid changes only the bid-on task. That task keeps its id and ends with the new bid. An open task stays open without an override and becomes allocated to the bidder with one. |
| Ledger.ShockTarget | allocare-nexus/src/store/allocareStore.ts:371-376 | There is no target iff no index is above 0.3. Otherwise the target is the first household above 0.3 of maximal shock exposure. |
| Ledger.CreditLoss | allocare-nexus/src/store/allocareStore.ts:377 | `floor(0.3 c)` lies in [0, 0.3 c] for non-negative credits. |
| Ledger.ShockHit | allocare-nexus/src/store/allocareStore.ts:379-384 | The shock keeps the length, unique ids and non-negative labor hours. Every household other than the target is unchanged except that its last-shocked mark is cleared. The target loses `floor(0.3 c)` of its credits (never below 0), its exposure rises by 0.1 capped at 1, it is marked, and nothing else about it changes. |
| Ledger.ShockOnFiftyCredits | allocare-nexus/src/store/allocareStore.ts:377-387 | A household with 50 credits loses 15, is left with 35, and is raised back to 60 by the floor pass. |
| Ledger.HighestPovertyTarget | allocare-nexus/src/store/allocareStore.ts:481-484 | There is no target iff no index is above 0.7. Otherwise the target is the first household of maximal index above 0.7. |
| Ledger.DonorFor | allocare-nexus/src/store/allocareStore.ts:485-490 | There is no donor iff no household other than the target has an index below 0.4 and more than 50 credits. Otherwise the donor is the first such household of maximal credits. |
| Ledger.RedistributionAmount | allocare-nexus/src/store/allocareStore.ts:491 | `min(cap, floor(rate * credits))` is at most the cap and at most `rate * credits`. |
| Ledger.RedistributionAmountBounds | allocare-nexus/src/store/allocareStore.ts:491 | For a donor with more than 50 credits, both rates in use give a positive amount the donor can cover. |
| Ledger.GetAISuggestion | allocare-nexus/src/store/allocareStore.ts:479-494 | There is no suggestion when no index is above 0.7, or when the target has no qualifying donor; in every other case there is one. A suggestion moves `min(30, floor(0.2 c))`, which is positive and at most `c`, from the best donor to the target, and the two differ. |
| Ledger.InitialSuggestion | allocare-nexus/src/store/allocareStore.ts:479-494 | On the seed community the advisor suggests moving 24 credits from h2 to h5. |
| Ledger.InitialTarget | allocare-nexus/src/store/allocareStore.ts:481-484 | In the seed community the redistribution target is h5, at position 4. |
| Ledger.InitialDonor | allocare-nexus/src/store/allocareStore.ts:485-490 | In the seed community the best donor for h5 is h2, at position 1, holding 120 credits. |
| Ledger.RedistributionPlan | allocare-nexus/src/store/allocareStore.ts:411-425 | A planned transfer is AI-suggested, goes to the target, is positive, and comes from the best donor with the capped amount. There is no plan when no donor qualifies. When a donor qualifies and the cap is at least 1 and the rate at least 15% (both pairs in use), there is a plan. |
| Ledger.AmountPositive | allocare-nexus/src/store/allocareStore.ts:417-418 | A donor's amount `min(cap, floor(credits * rate))` is positive for any cap of at least 1 and rate of at least 15%, so the `amount > 0` guard never fails for a donor. |
| Ledger.PlanMovesCredits | allocare-nexus/src/store/allocareStore.ts:419-423 | Under a plan, the best donor loses the amount, the target gains it, and every other household is unchanged. |
| Ledger.CyclePlan | allocare-nexus/src/store/allocareStore.ts:503-536 | There is a cycle transfer exactly when someone is above 0.7 and a donor qualifies for the highest-poverty target; none when nobody is above 0.7. A cycle transfer is AI-suggested, goes to the highest-poverty target, and comes from the best donor, with amount `min(25, floor(0.15 c))`, positive and at most 25. |
| Ledger.ApplyPlan | allocare-nexus/src/store/allocareStore.ts:419-423 | Applying a plan changes credits only, and keeps unique ids and labor hours. |
| Ledger.RedistributionCanBreachFloor | allocare-nexus/src/store/allocareStore.ts:419-424 | On a two-household list, the shock-sized plan (20%, at most 30) takes a donor with 65 credits to 52, and the cycle's plan (15%, at most 25) takes it to 56. Both are below the 60 floor, and neither step is followed by a floor pass. |
| Ledger.ShockBase | allocare-nexus/src/store/allocareStore.ts:379-387 | The shock followed by the floor pass keeps the length and settles a consistent list. |
| Ledger.ShockPlan | allocare-nexus/src/store/allocareStore.ts:410-418 | A redistribution is planned exactly when the engine is on and a donor qualifies among the households after the shock and the floor pass. It is AI-suggested, goes to the shocked household, comes from the best donor, and moves `min(30, floor(0.2 c))` of that donor's credits, positive and at most 30. |
| Ledger.ShockedHouseholds | allocare-nexus/src/store/allocareStore.ts:379-424 | The households after a shock keep the length and are settled. |
| Ledger.ShockedHouseholdsShape | allocare-nexus/src/store/allocareStore.ts:379-424 | After a shock, ids and labor hours are kept. Only households with the target's id are marked as last shocked. The target's exposure is `min(1, r + 0.1)`. Everyone holds at least 60 unless a redistribution followed. |
| Ledger.PlanKeepsRecords | allocare-nexus/src/store/allocareStore.ts:419-424 | A redistribution and recomputation keep ids, labor hours, the shock mark and the exposure. |
| Ledger.ShockBaseShape | allocare-nexus/src/store/allocareStore.ts:379-387 | Right after the shock and the floor pass, ids and labor hours are kept. The last-shocked mark is on the target's id only, everyone holds at least 60, and the target's exposure has risen by 0.1, capped at 1. Every household's credits are its credits after the hit, floored: the target's `max(0, c - floor(0.3 c))`, the others' their old credits. The others keep their exposure. |
| Ledger.ShockTargetCredits | allocare-nexus/src/store/allocareStore.ts:377-387 | The target keeps `max(0, c - floor(0.3 c))` credits, raised to 60 if below. |
| Ledger.DriftFromDraws | allocare-nexus/src/store/allocareStore.ts:540-546 | Any four draws in [0, 1) give drift terms within the ranges `DriftInRange` states: a bump in [2, 10), a decay in [0, 2) and at most the labor hours, a gain in [0, 3) and an instability step in [-0.0275, 0.0225). |
| Ledger.Drifted | allocare-nexus/src/store/allocareStore.ts:539-547 | Credits grow by the bump and labor hours by decay plus gain. Instability becomes `max(0, s + delta)`, never negative. With in-range terms the credits grow by 2 to 10 and hours never fall. No other field changes. |
| Ledger.ApplyDrift | allocare-nexus/src/store/allocareStore.ts:539-548 | The drift keeps the length, and each household keeps its id, gains the bump in credits, and gets instability `max(0, s + delta)`. |
| Ledger.CycleHouseholds | allocare-nexus/src/store/allocareStore.ts:499-550 | With non-negative labor drift, a cycle keeps the length and settles a consistent list. |
| Ledger.CycleHouseholdsShape | allocare-nexus/src/store/allocareStore.ts:539-550 | Ids are kept through a cycle, and labor hours grow by exactly the decay and gain terms. |
| Ledger.CycleDriftShape | allocare-nexus/src/store/allocareStore.ts:503-550 | Through a cycle each household's credits are its credits after the redistribution plus the bump (its old credits plus the bump when the engine is off), and its instability is `max(0, s + delta)`. |
| Ledger.CountAbove | allocare-nexus/src/store/allocareStore.ts:552-553 | The count of households above a threshold is at most the population. It is 0 iff nobody is above the threshold, and the whole population iff everybody is. |
| Ledger.CountAboveCounts | allocare-nexus/src/store/allocareStore.ts:552-553 | The count equals the number of positions whose index is above the threshold. |
| Ledger.CountExited | allocare-nexus/src/store/allocareStore.ts:581 | The exited count is at most the population. It is 0 iff no exit flag is set, and the whole population iff every flag is. |
| Ledger.CountExitedCounts | allocare-nexus/src/store/allocareStore.ts:581 | The count equals the number of positions whose exit flag is set. |
| Ledger.ShareAtMostOne | allocare-nexus/src/store/allocareStore.ts:552 | A count over a population no smaller than it is a share in [0, 1]. |
| Ledger.Percentage | allocare-nexus/src/store/allocareStore.ts:552 | `c` out of `n` as a percentage lies in [0, 100], is 0 exactly for none and 100 exactly for all. |
| Ledger.PovertyRate | allocare-nexus/src/store/allocareStore.ts:552 | The poverty rate is the share, in percent, of the households whose index is above 0.6, and it lies in [0, 100]. |
| Ledger.PovertyRateExtremes | allocare-nexus/src/store/allocareStore.ts:552 | The rate is 0 iff nobody is above 0.6, and 100 iff everybody is. |
| Ledger.TrendPointFor | allocare-nexus/src/store/allocareStore.ts:552-563 | The point carries the given cycle and the poverty rate rounded, in [0, 100]. Its extreme count is the number of households above 0.75, at most the population. Its resilience is the community's resilience score, at least 0 and at most 100 for indices in [0, 1]. Its average is the mean index rounded to two decimals. |
| Ledger.PovertyReduction | allocare-nexus/src/store/allocareStore.ts:565-566 | The reduction is `max(0, last stored rate - current rate)`: never negative, 0 on an empty history, at least the difference, and equal to it when positive. |
| Ledger.RoundedRateComparison | allocare-nexus/src/store/allocareStore.ts:559-566 | Comparing the stored rounded 67 with an unchanged 66.67 records a reduction of 1/3. |
| Ledger.NewJobs | allocare-nexus/src/store/allocareStore.ts:129-142 | One job per template, in template order, each active, in the sector, with the given id. Every other field (title, category, credits, cash payment, coupons, proof kind) is the template's, and the credits are positive. |
| Ledger.PayHousehold | allocare-nexus/src/store/allocareStore.ts:169-174 | The assignee, every household with its id, gains exactly the job's credits; everyone else keeps theirs. Only credits change; unique ids and labor hours are kept. |
| Ledger.PayoutGoesToAssignee | allocare-nexus/src/store/allocareStore.ts:169-177 | After the payout and recomputation, ids are kept, the assignee's credits are its old credits plus the job's, and every other household's credits are unchanged. |
| Ledger.SubmitProof | allocare-nexus/src/store/allocareStore.ts:155-158 | Every job with the id becomes verified, assigned to the household and carrying the proof. No other field and no other job changes. |
| Ledger.CompleteJob | allocare-nexus/src/store/allocareStore.ts:178 | Every job with the id becomes completed with all its other fields kept; every other job is unchanged. |
| Store.ShockOutcome | allocare-nexus/src/store/allocareStore.ts:368-465 | The shock's new households are settled and keep the length. The transfer list stays within 50. |
| Store.ShockOutcomeRecords | allocare-nexus/src/store/allocareStore.ts:386-463 | The emergency flag is raised iff the shock left someone below 60. The newest log entry is the `shock` entry naming the target. A planned redistribution is the newest transfer, to the target; without one the transfers are unchanged. |
| Store.ShockAdviceLogs | allocare-nexus/src/store/allocareStore.ts:426-450 | At most one `redistribution` entry. With the engine on there is one iff a redistribution was made, naming the target; with it off there is one iff the pre-shock advisor has a suggestion, naming its recipient. |
| Store.ShockTargetOfPair | allocare-nexus/src/store/allocareStore.ts:371-376 | Of two households with only the first above 0.3, the first is the shock target. |
| Store.NoSuggestionForCalmPair | allocare-nexus/src/store/allocareStore.ts:481-483 | Of two households with neither above 0.7, there is no advice. |
| Store.TargetOfPair | allocare-nexus/src/store/allocareStore.ts:481-484 | Of two households with only the first above 0.7, the first is the redistribution target. |
| Store.DonorOfPair | allocare-nexus/src/store/allocareStore.ts:485-490 | When only the second of two households qualifies as a donor for the first, it is the best donor. |
| Store.SuggestionOnPair | allocare-nexus/src/store/allocareStore.ts:479-494 | A target `a` at 0.72 and a donor `b` at index 0 with 200 credits give the advice to move the 30-credit cap from `b` to `a`. |
| Store.AdviceExampleFields | allocare-nexus/src/store/allocareStore.ts:73-78 | The example's recomputed indices are 0.58 for `a` and 0 for `b`. |
| Store.AdviceExampleBefore | allocare-nexus/src/store/allocareStore.ts:371-376 | On a two-household example nobody is above 0.7 before the shock, so there is no suggestion, and `a` is the shock target. |
| Store.StabilizePair | allocare-nexus/src/store/allocareStore.ts:386-387 | On the two shocked households the floor pass raises nobody, and recomputation gives `a` index 0.72 and `b` index 0. |
| Store.AdviceExampleShocked | allocare-nexus/src/store/allocareStore.ts:377-387 | The shock leaves `a` with 70 credits and index 0.72, and nobody below the floor. |
| Store.AdviceExampleAfter | allocare-nexus/src/store/allocareStore.ts:479-494 | On the shocked households the advisor would suggest moving 30 credits from `b` to `a`. |
| Store.AdviceUsesPreShockState | allocare-nexus/src/store/allocareStore.ts:440-450 | Because the advice is taken before the shock, the non-AI shock on the example logs only the `shock` entry, although the post-shock state has a suggestion. |
| Store.AllocareStore.constructor | allocare-nexus/src/store/allocareStore.ts:108-126 | The initial state: the initialized seed households and tasks, empty histories, two info entries, cycle 1, both flags off, a fund of 50000. The invariant holds. |
| Store.AllocareStore.AddLog | allocare-nexus/src/store/allocareStore.ts:208-212 | The entry goes first, at most 100 entries are kept, and the rest is the old list truncated. |
| Store.AllocareStore.FundEmergencyPool | allocare-nexus/src/store/allocareStore.ts:197-206 | The balance grows by the amount, and a `stabilization` entry is prepended with no cap. |
| Store.AllocareStore.EnableAIRedistribution | allocare-nexus/src/store/allocareStore.ts:467-477 | The flag is toggled and an info entry is prepended, capped at 100. |
| Store.AllocareStore.RecalculateAll | allocare-nexus/src/store/allocareStore.ts:214-221 | Households are recomputed. On a valid state this changes nothing, and the invariant is kept. |
| Store.AllocareStore.TokenizeLabor | allocare-nexus/src/store/allocareStore.ts:223-264 | Households become the tokenized list after the floor pass and recomputation. The labor, celebration and floor entries are prepended, capped at 100. Transfers are unchanged and the invariant is kept. `hours` defaults to 1, as in the source. |
| Store.AllocareStore.SubmitBid | allocare-nexus/src/store/allocareStore.ts:266-316 | No-op for a missing household or task, a task that is not open, or too few credits. Otherwise the task is replaced by the placed bid and a bid or equity-override entry is prepended. An override allocates the task to the bidder. Households are untouched and bids stay unique. |
| Store.AllocareStore.TransferCredits | allocare-nexus/src/store/allocareStore.ts:318-361 | No-op for a missing id or too few credits. Otherwise households become the moved list after the floor pass, and everyone holds at least 60. The transfer is prepended, capped at 50, and the transfer and floor entries are prepended, capped at 100. Between distinct households, when the floor pass raises nobody, the total is conserved. `aiSuggested` defaults to false, as in the source. |
| Store.AllocareStore.SimulateShock | allocare-nexus/src/store/allocareStore.ts:368-465 | No-op when no index is above 0.3. Otherwise households, transfers, logs and the emergency flag become the shock outcome on the chosen target; the flag is the floor pass's `activated`. The invariant is kept. |
| Store.AllocareStore.TriggerShock | allocare-nexus/src/store/allocareStore.ts:364-366 | Same effect as `SimulateShock`. |
| Store.AllocareStore.RunCycle | allocare-nexus/src/store/allocareStore.ts:496-586 | Households, transfers, trend and logs are the cycle's values. The cycle grows by exactly 1. The last trend point carries the pre-increment cycle, and only the last 20 points are kept. The cumulative reduction never decreases. The exited count is at most the population. The invariant is kept. |
| Store.AllocareStore.ActivateProgram | allocare-nexus/src/store/allocareStore.ts:128-152 | Five new active jobs for the sector are appended, and an info entry is prepended with no cap. |
| Store.AllocareStore.SubmitJobProof | allocare-nexus/src/store/allocareStore.ts:154-162 | Jobs become the submitted-proof list; nothing else changes. |
| Store.AllocareStore.VerifyJob | allocare-nexus/src/store/allocareStore.ts:164-186 | No-op when the job is missing or unassigned. Otherwise households become the payout to the assignee (`PayoutGoesToAssignee`) after recomputation, every job with the id is completed, and a `stabilization` entry is prepended with no cap. The invariant is kept. |

## Left out

- Persistence and network calls are not modelled: `saveLog`, `syncHouseholds`, `saveBid`, `saveTransfer`, `saveShock`, `saveTokenization` and `saveTrendPoint` are fire-and-forget side effects with no bearing on the store's state. `allocare-nexus/src/api/client.ts` and `allocare-nexus/server/index.ts` are not part of this model.
- Randomness and clocks become parameters. The four random terms of a cycle's drift are `RunCycle`'s `drift` argument, with their ranges stated in `DriftInRange`. Generated job ids are `ActivateProgram`'s `ids` argument. Log ids, bid and transfer timestamps and the message text of log entries are dropped.
- `runPilotSimulation` is not modelled: it is timer-driven orchestration over the other actions. `login`, `logout`, `togglePilotMode` and the fields `pilotMode`, `pilotRunning` and `currentUserRole` are not modelled either: they are plain toggles that no other action reads.
- Floating-point behaviour is not modelled: numbers are exact reals, so IEEE-754 rounding is absent. `RunCycle` requires a non-empty population, which `Valid()` provides, so the `NaN` of an empty community does not arise.
- String ordering in the edge key compares `char`s, where JavaScript's default sort compares UTF-16 code units. The two agree on the ids in use.
- The UI-level checks in the React components are not store behaviour and are not modelled: self-transfer rejection, positive amounts and the bid amount check.
- `getAISuggestion` is modelled as the function `Ledger.GetAISuggestion` of the households. It reads the store and changes nothing, so it has no method.
- `Store.AllocareStore.TransferCredits`, `Store.AllocareStore.SimulateShock` and `Store.AllocareStore.RunCycle` state their new households through the value functions `Stabilize`, `ShockOutcome` and `CycleHouseholds`. They do not call the `ApplyEmergencyFloor` method; its ensures proves it computes the same floor pass. `TokenizeLabor` does call it.
- Store.AllocareStore.SimulateShock: the per-household facts are stated by the lemmas `ShockedHouseholdsShape`, `ShockBaseShape` and `ShockTargetCredits` about `ShockOutcome`'s households, not repeated in the method's ensures. These facts cover the target's credits, everyone else's credits, exposure, the last-shocked mark and the floor.
- Store.AllocareStore.TokenizeLabor: its frame names `transfers`, as the other household actions do, and its ensures says they are unchanged. The per-household credit facts are stated by `TokenizeThenFloor`.
- Store.ShockOutcome: its ensures states only length, settledness and the transfer cap. The emergency flag, the newest log entry and the transfers are stated by `ShockOutcomeRecords`, the floor entries by `StabilizationLogsShape` and `RaisedHouseholdsNamed`, and the advice entry by `ShockAdviceLogs`.

=== FILE: engine.dfy ===
/** The poverty scoring engine: threshold constants, the per-household
    poverty index and credit-deficit ratio, the community resilience score,
    the bid allocation score, threshold banding into labels and colours,
    the time-to-exit estimate, recomputation of the derived fields, the
    undirected edge list of the household network and the seed data.
    Numbers are exact reals: `Math.floor(x)` is `x.Floor`, `Math.ceil(x)` is
    `Ceil(x)` and `Math.round(x)` is `Round(x)`, that is `(x + 0.5).Floor`. */
module Engine {
  import opened Types

  const MINIMUM_SURVIVAL_THRESHOLD: real := 100.0
  const MINIMUM_CREDIT_FLOOR: real := 60.0
  const EXTREME_POVERTY_THRESHOLD: real := 0.75
  const HIGH_POVERTY_THRESHOLD: real := 0.6
  const EQUITY_OVERRIDE_THRESHOLD: real := 0.7

  function Max(a: real, b: real): real { if a >= b then a else b }

  function Min(a: real, b: real): real { if a <= b then a else b }

  /** `Math.round`: halves round towards positive infinity. */
  function Round(x: real): (r: int)
    ensures x - 0.5 < r as real <= x + 0.5
  {
    (x + 0.5).Floor
  }

  /** `Math.ceil`. */
  function Ceil(x: real): (r: int)
    ensures x <= r as real < x + 1.0
  {
    -((-x).Floor)
  }

  // ---------------------------------------------------------------------
  // Poverty index

  /** Shortfall below the survival threshold, as a fraction of it. */
  function CreditDeficitRatio(credits: real): (r: real)
    ensures credits >= MINIMUM_SURVIVAL_THRESHOLD ==> r == 0.0
    ensures credits < MINIMUM_SURVIVAL_THRESHOLD ==>
              r * MINIMUM_SURVIVAL_THRESHOLD == MINIMUM_SURVIVAL_THRESHOLD - credits
    ensures credits >= 0.0 ==> 0.0 <= r <= 1.0
  {
    Max(0.0, MINIMUM_SURVIVAL_THRESHOLD - credits) / MINIMUM_SURVIVAL_THRESHOLD
  }

  function Clamp01(x: real): (r: real)
    ensures 0.0 <= r <= 1.0
    ensures 0.0 <= x <= 1.0 ==> r == x
  {
    Min(1.0, Max(0.0, x))
  }

  /** The pair of derived fields of a household. */
  datatype Scores = Scores(povertyIndex: real, creditDeficitRatio: real)

  /** Weighted sum 0.4 / 0.2 / 0.2 / 0.2 of the credit deficit and the
      three risk factors, forced into [0, 1]. Only the credits and the risk
      factors are read. */
  function ComputePovertyIndex(h: Household): (s: Scores)
    ensures s.creditDeficitRatio == CreditDeficitRatio(h.credits)
    ensures 0.0 <= s.povertyIndex <= 1.0
  {
    var cdr := CreditDeficitRatio(h.credits);
    var raw := 0.4 * cdr + 0.2 * h.incomeInstabilityScore + 0.2 * h.dependencyRatio
               + 0.2 * h.shockExposureRisk;
    Scores(Clamp01(raw), cdr)
  }

  /** The risk factors a producer is expected to keep in [0, 1]. */
  predicate RiskInputsInRange(h: Household) {
    && 0.0 <= h.incomeInstabilityScore <= 1.0
    && 0.0 <= h.dependencyRatio <= 1.0
    && 0.0 <= h.shockExposureRisk <= 1.0
  }

  /** The weights sum to 1, so for in-range inputs the final clamp never
      fires: the index is the plain weighted sum. */
  lemma UnclampedForInRangeInputs(h: Household)
    requires RiskInputsInRange(h) && h.credits >= 0.0
    ensures ComputePovertyIndex(h).povertyIndex
            == 0.4 * CreditDeficitRatio(h.credits) + 0.2 * h.incomeInstabilityScore
               + 0.2 * h.dependencyRatio + 0.2 * h.shockExposureRisk
  {
  }

  /** The derived fields depend on the credits and the three risk factors
      only: two records that agree on those get the same scores. */
  lemma ScoresDependOnRiskFieldsOnly(a: Household, b: Household)
    requires a.credits == b.credits
    requires a.incomeInstabilityScore == b.incomeInstabilityScore
    requires a.dependencyRatio == b.dependencyRatio
    requires a.shockExposureRisk == b.shockExposureRisk
    ensures ComputePovertyIndex(a) == ComputePovertyIndex(b)
  {
  }

  /** With every other field fixed, more credits never raise the index. */
  lemma PovertyIndexAntitoneInCredits(h: Household, credits: real)
    requires h.credits <= credits
    ensures ComputePovertyIndex(h.(credits := credits)).povertyIndex
            <= ComputePovertyIndex(h).povertyIndex
    ensures CreditDeficitRatio(credits) <= CreditDeficitRatio(h.credits)
  {
  }

  /** Recorded derived fields agree with the risk fields. */
  predicate Fresh(h: Household) {
    var s := ComputePovertyIndex(h);
    h.povertyIndex == s.povertyIndex && h.creditDeficitRatio == s.creditDeficitRatio
  }

  /** The household with its derived fields blanked out. */
  function Base(h: Household): Household {
    h.(povertyIndex := 0.0, creditDeficitRatio := 0.0)
  }

  /** One household with its derived fields overwritten. */
  function Recalc(h: Household): (r: Household)
    ensures Fresh(r)
    ensures Base(r) == Base(h)
    ensures Fresh(h) ==> r == h
  {
    var s := ComputePovertyIndex(h);
    h.(povertyIndex := s.povertyIndex, creditDeficitRatio := s.creditDeficitRatio)
  }

  /** Every household mapped through the scoring function. The store's
      `recalcHouseholds` is the same map and is this function too. */
  function InitializeHouseholds(hs: seq<Household>): (r: seq<Household>)
    ensures |r| == |hs|
    ensures forall i :: 0 <= i < |hs| ==> Fresh(r[i]) && Base(r[i]) == Base(hs[i])
  {
    seq(|hs|, i requires 0 <= i < |hs| => Recalc(hs[i]))
  }

  /** Recomputation is idempotent: a fresh list is left as it is. */
  lemma InitializeHouseholdsIdempotent(hs: seq<Household>)
    ensures InitializeHouseholds(InitializeHouseholds(hs)) == InitializeHouseholds(hs)
  {
    var once := InitializeHouseholds(hs);
    var twice := InitializeHouseholds(once);
    forall i | 0 <= i < |hs| ensures twice[i] == once[i] {
      assert Fresh(once[i]);
    }
  }

  // ---------------------------------------------------------------------
  // Resilience and allocation scores

  function SumPovertyIndex(hs: seq<Household>): real {
    if |hs| == 0 then 0.0 else SumPovertyIndex(hs[..|hs| - 1]) + hs[|hs| - 1].povertyIndex
  }

  predicate IndicesInUnit(hs: seq<Household>) {
    forall i :: 0 <= i < |hs| ==> 0.0 <= hs[i].povertyIndex <= 1.0
  }

  lemma {:induction false} SumPovertyIndexBounds(hs: seq<Household>)
    ensures IndicesInUnit(hs) ==> 0.0 <= SumPovertyIndex(hs) <= |hs| as real
  {
    if |hs| > 0 {
      var init := hs[..|hs| - 1];
      assert IndicesInUnit(hs) ==> IndicesInUnit(init) by {
        if IndicesInUnit(hs) {
          forall i | 0 <= i < |init| ensures 0.0 <= init[i].povertyIndex <= 1.0 {
            assert init[i] == hs[i];
          }
        }
      }
      SumPovertyIndexBounds(init);
    }
  }

  /** `max(0, round(100 - 100 * mean))`. */
  function ResilienceFromMean(mean: real): (r: int)
    ensures r >= 0
    ensures 0.0 <= mean <= 1.0 ==> r <= 100
  {
    var x := Round(100.0 - mean * 100.0);
    if x >= 0 then x else 0
  }

  /** A higher mean poverty index never gives a higher resilience score. */
  lemma ResilienceAntitoneInMean(m1: real, m2: real)
    requires m1 <= m2
    ensures ResilienceFromMean(m2) <= ResilienceFromMean(m1)
  {
    assert 100.0 - m2 * 100.0 + 0.5 <= 100.0 - m1 * 100.0 + 0.5;
  }

  function MeanPovertyIndex(hs: seq<Household>): real
    requires |hs| > 0
  {
    SumPovertyIndex(hs) / |hs| as real
  }

  /** Community resilience: 100 for an empty community, otherwise
      `ResilienceFromMean` of the mean poverty index. */
  function ComputeResilienceScore(hs: seq<Household>): (r: int)
    ensures |hs| == 0 ==> r == 100
    ensures r >= 0
    ensures IndicesInUnit(hs) ==> r <= 100
    ensures |hs| > 0 ==> r == ResilienceFromMean(MeanPovertyIndex(hs))
  {
    if |hs| == 0 then 100
    else
      SumPovertyIndexBounds(hs);
      var mean := SumPovertyIndex(hs) / |hs| as real;
      assert IndicesInUnit(hs) ==> 0.0 <= mean <= 1.0 by {
        if IndicesInUnit(hs) {
          assert mean * (|hs| as real) == SumPovertyIndex(hs);
        }
      }
      ResilienceFromMean(mean)
  }

  /** Between two non-empty communities, the one with the higher mean index
      has the lower (or equal) resilience score. */
  lemma ResilienceAntitone(a: seq<Household>, b: seq<Household>)
    requires |a| > 0 && |b| > 0
    requires MeanPovertyIndex(a) <= MeanPovertyIndex(b)
    ensures ComputeResilienceScore(b) <= ComputeResilienceScore(a)
  {
    ResilienceAntitoneInMean(MeanPovertyIndex(a), MeanPovertyIndex(b));
  }

  /** Bid normalised by a cap of 200 credits, blended with the centrality
      and the poverty index. */
  function ComputeAllocationScore(bid: real, centralityScore: real, povertyIndex: real): (r: real)
    ensures bid >= 200.0 ==> r == 0.4 + 0.2 * centralityScore + 0.4 * povertyIndex
    ensures 0.0 <= bid && 0.0 <= centralityScore <= 1.0 && 0.0 <= povertyIndex <= 1.0
            ==> 0.0 <= r <= 1.0
  {
    var normalizedBid := Min(1.0, bid / 200.0);
    0.4 * normalizedBid + 0.2 * centralityScore + 0.4 * povertyIndex
  }

  /** Bids above the cap earn nothing extra: any two bids of at least 200
      score the same. */
  lemma AllocationScoreSaturates(b1: real, b2: real, centralityScore: real, povertyIndex: real)
    requires b1 >= 200.0 && b2 >= 200.0
    ensures ComputeAllocationScore(b1, centralityScore, povertyIndex)
            == ComputeAllocationScore(b2, centralityScore, povertyIndex)
  {
  }

  // ---------------------------------------------------------------------
  // Bands

  const GREEN := "#10b981"
  const YELLOW := "#f59e0b"
  const RED := "#ef4444"

  function GetPovertyColor(povertyIndex: real): (c: string)
    ensures c == GREEN <==> povertyIndex < 0.3
    ensures c == YELLOW <==> 0.3 <= povertyIndex < 0.6
    ensures c == RED <==> 0.6 <= povertyIndex
  {
    if povertyIndex < 0.3 then GREEN
    else if povertyIndex < 0.6 then YELLOW
    else RED
  }

  function GetPovertyLabel(povertyIndex: real): (l: string)
    ensures l == "Stable" <==> povertyIndex < 0.3
    ensures l == "Vulnerable" <==> 0.3 <= povertyIndex < HIGH_POVERTY_THRESHOLD
    ensures l == "High Risk" <==> HIGH_POVERTY_THRESHOLD <= povertyIndex < EXTREME_POVERTY_THRESHOLD
    ensures l == "Extreme Poverty" <==> EXTREME_POVERTY_THRESHOLD <= povertyIndex
  {
    if povertyIndex < 0.3 then "Stable"
    else if povertyIndex < 0.6 then "Vulnerable"
    else if povertyIndex < 0.75 then "High Risk"
    else "Extreme Poverty"
  }

  /** Colour and label cut the index line at the same 0.3 and 0.6 points:
      green is exactly "Stable", yellow exactly "Vulnerable", and red is
      "High Risk" or "Extreme Poverty". */
  lemma ColorAgreesWithLabel(povertyIndex: real)
    ensures GetPovertyColor(povertyIndex) == GREEN <==> GetPovertyLabel(povertyIndex) == "Stable"
    ensures GetPovertyColor(povertyIndex) == YELLOW <==> GetPovertyLabel(povertyIndex) == "Vulnerable"
    ensures GetPovertyColor(povertyIndex) == RED <==>
              GetPovertyLabel(povertyIndex) in {"High Risk", "Extreme Poverty"}
  {
  }

  // ---------------------------------------------------------------------
  // Time to exit poverty

  /** The four shapes of the estimate; `Weeks(n)` reads "n week(s)" and
      `Months(n)` reads "n month(s)". */
  datatype ExitEstimate = AlreadyStable | UnderAWeek | Weeks(weeks: nat) | Months(months: nat)

  /** Whole weeks at 10 credits a week to cover `needed` credits. */
  lemma WeeksBounds(needed: real)
    requires needed > 0.0
    ensures var w := Ceil(needed / 10.0);
            w >= 1 && 10.0 * (w - 1) as real < needed <= 10.0 * w as real
  {
    var w := Ceil(needed / 10.0);
    assert needed / 10.0 <= w as real < needed / 10.0 + 1.0;
  }

  /** Months of four weeks to cover `weeks` weeks of 10 credits each. */
  lemma MonthsBounds(needed: real, weeks: int)
    requires weeks > 4
    requires 10.0 * (weeks - 1) as real < needed <= 10.0 * weeks as real
    ensures var m := Ceil(weeks as real / 4.0);
            m >= 2 && 40.0 * (m - 1) as real < needed <= 40.0 * m as real
  {
    var m := Ceil(weeks as real / 4.0);
    assert weeks as real / 4.0 <= m as real < weeks as real / 4.0 + 1.0;
    assert weeks <= 4 * m;
    assert 4 * (m - 1) < weeks;
    assert 4 * (m - 1) <= weeks - 1;
    assert 40.0 * (m - 1) as real <= 10.0 * (weeks - 1) as real;
  }

  /** At 10 credits a week, the weeks needed to reach the survival
      threshold; more than four weeks are reported in (4-week) months. */
  function ComputeTimeToExitPoverty(h: Household): (e: ExitEstimate)
    ensures e == AlreadyStable <==> h.povertyIndex < 0.3
    ensures e == UnderAWeek <==> h.povertyIndex >= 0.3 && h.credits >= MINIMUM_SURVIVAL_THRESHOLD
    ensures e.Weeks? ==>
              var needed := MINIMUM_SURVIVAL_THRESHOLD - h.credits;
              1 <= e.weeks <= 4 && 10.0 * (e.weeks - 1) as real < needed <= 10.0 * e.weeks as real
    ensures e.Months? ==>
              var needed := MINIMUM_SURVIVAL_THRESHOLD - h.credits;
              e.months >= 2 && 40.0 * (e.months - 1) as real < needed <= 40.0 * e.months as real
  {
    if h.povertyIndex < 0.3 then AlreadyStable
    else
      var creditsNeeded := Max(0.0, MINIMUM_SURVIVAL_THRESHOLD - h.credits);
      var weeksAtCurrentRate := if creditsNeeded > 0.0 then Ceil(creditsNeeded / 10.0) else 0;
      if weeksAtCurrentRate == 0 then
        assert creditsNeeded > 0.0 ==> weeksAtCurrentRate >= 1 by {
          if creditsNeeded > 0.0 { WeeksBounds(creditsNeeded); }
        }
        UnderAWeek
      else
        WeeksBounds(creditsNeeded);
        if weeksAtCurrentRate <= 4 then Weeks(weeksAtCurrentRate)
        else
          MonthsBounds(creditsNeeded, weeksAtCurrentRate);
          Months(Ceil(weeksAtCurrentRate as real / 4.0))
  }

  function DigitChar(d: nat): (c: char)
    requires d < 10
    ensures '0' <= c <= '9' && c as int - '0' as int == d
  {
    ('0' as int + d) as char
  }

  /** The number a string of decimal digits denotes. */
  function DigitsValue(s: string): nat
    requires forall k :: 0 <= k < |s| ==> '0' <= s[k] <= '9'
  {
    if |s| == 0 then 0
    else DigitsValue(s[..|s| - 1]) * 10 + (s[|s| - 1] as int - '0' as int)
  }

  /** Decimal digits of `n`, most significant first and without leading
      zeros: they denote `n`. */
  function NatToString(n: nat): (r: string)
    ensures |r| > 0 && (forall k :: 0 <= k < |r| ==> '0' <= r[k] <= '9')
    ensures DigitsValue(r) == n
    ensures r[0] == '0' ==> n == 0
  {
    if n < 10 then [DigitChar(n)]
    else
      var r := NatToString(n / 10) + [DigitChar(n % 10)];
      assert r[..|r| - 1] == NatToString(n / 10);
      r
  }

  function Plural(n: nat): string { if n > 1 then "s" else "" }

  /** The text the estimate is shown as. */
  function TimeToExitText(h: Household): (t: string)
    ensures t == "Already stable" <==> h.povertyIndex < 0.3
    ensures t == "< 1 week" <==> h.povertyIndex >= 0.3 && h.credits >= MINIMUM_SURVIVAL_THRESHOLD
    ensures var e := ComputeTimeToExitPoverty(h);
            e.Weeks? ==> t == NatToString(e.weeks) + (if e.weeks > 1 then " weeks" else " week")
    ensures var e := ComputeTimeToExitPoverty(h);
            e.Months? ==> t == NatToString(e.months) + " months"
  {
    match ComputeTimeToExitPoverty(h)
    case AlreadyStable => "Already stable"
    case UnderAWeek => "< 1 week"
    case Weeks(n) =>
      var t := NatToString(n) + " week" + Plural(n);
      assert t[0] == NatToString(n)[0];
      t
    case Months(n) =>
      var t := NatToString(n) + " month" + Plural(n);
      assert t[0] == NatToString(n)[0];
      t
  }

  // ---------------------------------------------------------------------
  // Network edges

  /** Lexicographic order on strings, as the default array sort compares
      them. */
  predicate LexLe(a: string, b: string) {
    |a| == 0 || (|b| > 0 && (a[0] < b[0] || (a[0] == b[0] && LexLe(a[1..], b[1..]))))
  }

  lemma {:induction false} LexLeTotal(a: string, b: string)
    ensures LexLe(a, b) || LexLe(b, a)
  {
    if |a| > 0 && |b| > 0 && a[0] == b[0] {
      LexLeTotal(a[1..], b[1..]);
    }
  }

  lemma {:induction false} LexLeAntisymmetric(a: string, b: string)
    requires LexLe(a, b) && LexLe(b, a)
    ensures a == b
  {
    if |a| > 0 && |b| > 0 {
      LexLeAntisymmetric(a[1..], b[1..]);
      assert a == [a[0]] + a[1..];
      assert b == [b[0]] + b[1..];
    }
  }

  /** `[a, b].sort().join('-')`. */
  function EdgeKey(a: string, b: string): string {
    if LexLe(a, b) then a + "-" + b else b + "-" + a
  }

  /** The key is the pair sorted, smaller id first, joined by '-'. */
  lemma EdgeKeySorted(a: string, b: string)
    ensures (EdgeKey(a, b) == a + "-" + b && LexLe(a, b)) || (EdgeKey(a, b) == b + "-" + a && LexLe(b, a))
  {
    LexLeTotal(a, b);
  }

  /** The key names an unordered pair: it does not depend on the order. */
  lemma EdgeKeySymmetric(a: string, b: string)
    ensures EdgeKey(a, b) == EdgeKey(b, a)
  {
    LexLeTotal(a, b);
    if LexLe(a, b) && LexLe(b, a) {
      LexLeAntisymmetric(a, b);
    }
  }

  function Key(e: NetworkEdge): string {
    EdgeKey(e.source, e.target)
  }

  /** The edge comes from some household's own connection list. */
  ghost predicate FromConnections(e: NetworkEdge, households: seq<Household>) {
    exists i :: 0 <= i < |households| && e.source == households[i].id
                && e.target in households[i].connections
  }

  /** Some edge of the list has key `x`. */
  ghost predicate HasKey(edges: seq<NetworkEdge>, x: string) {
    exists k :: 0 <= k < |edges| && Key(edges[k]) == x
  }

  /** What the edge list and the `seen` key set satisfy while they are
      built: `seen` holds exactly the keys of the edges, no key is repeated,
      and every edge comes from a connection list. */
  ghost predicate EdgesSoFar(edges: seq<NetworkEdge>, seen: set<string>, households: seq<Household>) {
    && (forall k :: 0 <= k < |edges| ==> Key(edges[k]) in seen)
    && (forall x :: x in seen ==> HasKey(edges, x))
    && (forall k, l :: 0 <= k < l < |edges| ==> Key(edges[k]) != Key(edges[l]))
    && (forall k :: 0 <= k < |edges| ==>
          edges[k].strength == 0.5 && FromConnections(edges[k], households))
  }

  lemma AddEdge(edges: seq<NetworkEdge>, seen: set<string>, households: seq<Household>, e: NetworkEdge)
    requires EdgesSoFar(edges, seen, households)
    requires Key(e) !in seen && e.strength == 0.5 && FromConnections(e, households)
    ensures EdgesSoFar(edges + [e], seen + {Key(e)}, households)
  {
    var edges' := edges + [e];
    forall x | x in seen + {Key(e)}
      ensures HasKey(edges', x)
    {
      if x == Key(e) {
        assert Key(edges'[|edges|]) == x;
      } else {
        var k :| 0 <= k < |edges| && Key(edges[k]) == x;
        assert edges'[k] == edges[k];
      }
    }
  }

  /** The inner `forEach` over one household's connections. */
  method AddConnections(households: seq<Household>, i: nat, edges0: seq<NetworkEdge>, seen0: set<string>)
    returns (edges: seq<NetworkEdge>, seen: set<string>)
    requires i < |households|
    requires EdgesSoFar(edges0, seen0, households)
    ensures EdgesSoFar(edges, seen, households)
    ensures seen0 <= seen
    ensures forall t :: t in households[i].connections ==> EdgeKey(households[i].id, t) in seen
  {
    var h := households[i];
    edges, seen := edges0, seen0;
    var j := 0;
    while j < |h.connections|
      invariant 0 <= j <= |h.connections|
      invariant EdgesSoFar(edges, seen, households)
      invariant seen0 <= seen
      invariant forall j' :: 0 <= j' < j ==> EdgeKey(h.id, h.connections[j']) in seen
    {
      var targetId := h.connections[j];
      var key := EdgeKey(h.id, targetId);
      if key !in seen {
        var e := NetworkEdge(h.id, targetId, 0.5);
        assert FromConnections(e, households);
        AddEdge(edges, seen, households, e);
        seen := seen + {key};
        edges := edges + [e];
      }
      j := j + 1;
    }
  }

  /** Distinct keys mean distinct unordered pairs. */
  lemma DistinctKeysDistinctPairs(edges: seq<NetworkEdge>)
    requires forall k, l :: 0 <= k < l < |edges| ==> Key(edges[k]) != Key(edges[l])
    ensures forall k, l :: 0 <= k < l < |edges| ==>
              {edges[k].source, edges[k].target} != {edges[l].source, edges[l].target}
  {
    forall k, l | 0 <= k < l < |edges|
      ensures {edges[k].source, edges[k].target} != {edges[l].source, edges[l].target}
    {
      if {edges[k].source, edges[k].target} == {edges[l].source, edges[l].target} {
        SamePairSameKey(edges[k].source, edges[k].target, edges[l].source, edges[l].target);
        assert false;
      }
    }
  }

  /** One edge of strength 0.5 per connection key, the first time the key
      is met, scanning the households and each one's connections in order.
      Each unordered pair is emitted at most once, every edge comes from a
      connection list, and every connection is covered by an edge with its
      key. */
  method GetNetworkEdges(households: seq<Household>) returns (edges: seq<NetworkEdge>)
    ensures forall k :: 0 <= k < |edges| ==>
              edges[k].strength == 0.5 && FromConnections(edges[k], households)
    ensures forall k, l :: 0 <= k < l < |edges| ==> Key(edges[k]) != Key(edges[l])
    ensures forall k, l :: 0 <= k < l < |edges| ==>
              {edges[k].source, edges[k].target} != {edges[l].source, edges[l].target}
    ensures forall i, t :: 0 <= i < |households| && t in households[i].connections ==>
              exists k :: 0 <= k < |edges| && Key(edges[k]) == EdgeKey(households[i].id, t)
  {
    edges := [];
    var seen: set<string> := {};
    var i := 0;
    while i < |households|
      invariant 0 <= i <= |households|
      invariant EdgesSoFar(edges, seen, households)
      invariant forall i', t :: 0 <= i' < i && t in households[i'].connections ==>
                  EdgeKey(households[i'].id, t) in seen
    {
      edges, seen := AddConnections(households, i, edges, seen);
      i := i + 1;
    }
    DistinctKeysDistinctPairs(edges);
  }

  lemma SamePairSameKey(a: string, b: string, c: string, d: string)
    requires {a, b} == {c, d}
    ensures EdgeKey(a, b) == EdgeKey(c, d)
  {
    assert a in {c, d} && b in {c, d};
    assert c in {a, b} && d in {a, b};
    if a == c {
      assert b == d;
    } else {
      assert a == d && b == c;
      EdgeKeySymmetric(a, b);
    }
  }

  // ---------------------------------------------------------------------
  // Seed data

  function Seed(id: string, name: string, credits: real, laborHours: real, instability: real,
                dependency: real, shockRisk: real, centrality: real, connections: seq<string>,
                sector: string): Household
  {
    Household(id, name, credits, laborHours, instability, dependency, shockRisk, centrality,
              0.0, 0.0, connections, sector, false, false)
  }

  const INITIAL_HOUSEHOLDS: seq<Household> := [
    Seed("h1", "Priya Sharma", 45.0, 12.0, 0.8, 0.7, 0.75, 0.6, ["h2", "h3"], "Sector-A1"),
    Seed("h2", "Rajan Kumar", 120.0, 5.0, 0.3, 0.2, 0.25, 0.8, ["h1", "h4", "h5"], "Sector-A2"),
    Seed("h3", "Meena Devi", 30.0, 20.0, 0.9, 0.85, 0.8, 0.4, ["h1", "h5"], "Sector-B1"),
    Seed("h4", "Arjun Patel", 85.0, 8.0, 0.5, 0.45, 0.4, 0.65, ["h2", "h5"], "Sector-B2"),
    Seed("h5", "Fatima Begum", 15.0, 25.0, 0.95, 0.9, 0.85, 0.35, ["h2", "h3", "h4"], "Sector-A1")
  ]

  function SeedTask(id: string, title: string, description: string, base: real, impact: real,
                    difficulty: Difficulty, category: string): Task
  {
    Task(id, title, description, base, impact, difficulty, category, [], None, false, Open)
  }

  const INITIAL_TASKS: seq<Task> := [
    SeedTask("t1", "Community Water Distribution",
             "Coordinate water supply logistics for 50 households in the eastern zone.",
             30.0, 0.8, Medium, "Infrastructure"),
    SeedTask("t2", "Mobile Health Camp Support",
             "Assist medical team with patient registration and logistics for 2-day health camp.",
             20.0, 0.9, Low, "Healthcare"),
    SeedTask("t3", "Digital Literacy Workshop",
             "Teach basic smartphone and internet skills to 20 community members.",
             40.0, 0.7, High, "Education")
  ]

  /** Seed scenario: the fifth seed household (credits 15, instability
      0.95, dependency 0.9, shock risk 0.85) has a deficit of 0.85 and an
      index of 0.88, above the extreme-poverty threshold. */
  lemma SeedScenarioFatima()
    ensures ComputePovertyIndex(INITIAL_HOUSEHOLDS[4]) == Scores(0.88, 0.85)
    ensures ComputePovertyIndex(INITIAL_HOUSEHOLDS[4]).povertyIndex > EXTREME_POVERTY_THRESHOLD
  {
  }

  /** The initial indices of all five seed households and the resulting
      community resilience score of 44 (mean index 0.564). */
  lemma InitialIndices()
    ensures var hs := InitializeHouseholds(INITIAL_HOUSEHOLDS);
            && |hs| == 5
            && hs[0].povertyIndex == 0.67 && hs[1].povertyIndex == 0.15
            && hs[2].povertyIndex == 0.79 && hs[3].povertyIndex == 0.33
            && hs[4].povertyIndex == 0.88
            && ComputeResilienceScore(hs) == 44
  {
    var hs := InitializeHouseholds(INITIAL_HOUSEHOLDS);
    assert hs[0] == Recalc(INITIAL_HOUSEHOLDS[0]);
    assert hs[1] == Recalc(INITIAL_HOUSEHOLDS[1]);
    assert hs[2] == Recalc(INITIAL_HOUSEHOLDS[2]);
    assert hs[3] == Recalc(INITIAL_HOUSEHOLDS[3]);
    assert hs[4] == Recalc(INITIAL_HOUSEHOLDS[4]);
    assert hs[..1][..0] == [];
    assert SumPovertyIndex(hs[..1]) == 0.67;
    assert hs[..2][..1] == hs[..1];
    assert SumPovertyIndex(hs[..2]) == 0.82;
    assert hs[..3][..2] == hs[..2];
    assert SumPovertyIndex(hs[..3]) == 1.61;
    assert hs[..4][..3] == hs[..3];
    assert SumPovertyIndex(hs[..4]) == 1.94;
    assert hs[..4] == hs[..|hs| - 1];
    assert SumPovertyIndex(hs) == 2.82;
  }
}

=== FILE: ledger.dfy ===
/** The value-level rules of the simulation store: lookup by id, the
    emergency floor pass, credit moves, labor tokenization, bid placement,
    shock selection, the redistribution advisor, the per-cycle drift and
    statistics, and the CECS job updates. Each is a function of the
    household, task or job lists (or, for the floor pass, a method with a
    loop); the store class in `Store` applies them to its fields. */
module Ledger {
  import opened Types
  import opened Seqs
  import opened Engine

  // ---------------------------------------------------------------------
  // Lookup by id (`find`: the first record with the id)

  function HouseholdIndex(hs: seq<Household>, id: string): (r: Option<nat>)
    ensures r.None? <==> forall i :: 0 <= i < |hs| ==> hs[i].id != id
    ensures r.Some? ==> r.value < |hs| && hs[r.value].id == id
    ensures r.Some? ==> forall j :: 0 <= j < r.value ==> hs[j].id != id
  {
    FindIndex(hs, (h: Household) => h.id == id)
  }

  function TaskIndex(ts: seq<Task>, id: string): (r: Option<nat>)
    ensures r.None? <==> forall i :: 0 <= i < |ts| ==> ts[i].id != id
    ensures r.Some? ==> r.value < |ts| && ts[r.value].id == id
    ensures r.Some? ==> forall j :: 0 <= j < r.value ==> ts[j].id != id
  {
    FindIndex(ts, (t: Task) => t.id == id)
  }

  function JobIndex(js: seq<CECSJob>, id: string): (r: Option<nat>)
    ensures r.None? <==> forall i :: 0 <= i < |js| ==> js[i].id != id
    ensures r.Some? ==> r.value < |js| && js[r.value].id == id
    ensures r.Some? ==> forall j :: 0 <= j < r.value ==> js[j].id != id
  {
    FindIndex(js, (j: CECSJob) => j.id == id)
  }

  predicate UniqueIds(hs: seq<Household>) {
    forall i, j :: 0 <= i < j < |hs| ==> hs[i].id != hs[j].id
  }

  /** A list whose ids are, position by position, those of a list with
      unique ids has unique ids too. */
  lemma UniqueIdsKept(a: seq<Household>, b: seq<Household>)
    requires UniqueIds(a) && |a| == |b|
    requires forall i :: 0 <= i < |a| ==> b[i].id == a[i].id
    ensures UniqueIds(b)
  {
  }

  /** Unique ids and non-negative labor hours. */
  predicate Consistent(hs: seq<Household>) {
    UniqueIds(hs) && forall i :: 0 <= i < |hs| ==> hs[i].laborHours >= 0.0
  }

  /** Consistent, with every household's derived fields up to date. */
  predicate Settled(hs: seq<Household>) {
    Consistent(hs) && forall i :: 0 <= i < |hs| ==> Fresh(hs[i])
  }

  /** Recomputing the derived fields settles a consistent list. */
  lemma RecalcSettles(hs: seq<Household>)
    ensures Consistent(hs) ==> Settled(InitializeHouseholds(hs))
  {
    var r := InitializeHouseholds(hs);
    assert forall i :: 0 <= i < |r| ==> Base(r[i]) == Base(hs[i]);
    if Consistent(hs) {
      UniqueIdsKept(hs, r);
    }
  }

  /** The seed community has distinct ids, so it starts settled. */
  lemma InitialSettled()
    ensures Settled(InitializeHouseholds(INITIAL_HOUSEHOLDS))
  {
    assert INITIAL_HOUSEHOLDS[0].id == "h1" && INITIAL_HOUSEHOLDS[1].id == "h2";
    assert INITIAL_HOUSEHOLDS[2].id == "h3" && INITIAL_HOUSEHOLDS[3].id == "h4";
    assert INITIAL_HOUSEHOLDS[4].id == "h5";
    assert UniqueIds(INITIAL_HOUSEHOLDS);
    assert forall i :: 0 <= i < |INITIAL_HOUSEHOLDS| ==> INITIAL_HOUSEHOLDS[i].laborHours >= 0.0;
    RecalcSettles(INITIAL_HOUSEHOLDS);
  }

  /** Number of households carrying `id`. */
  function CountId(hs: seq<Household>, id: string): nat {
    if |hs| == 0 then 0
    else CountId(hs[..|hs| - 1], id) + (if hs[|hs| - 1].id == id then 1 else 0)
  }

  /** With unique ids, an id occurs once if it is present at all. */
  lemma {:induction false} CountIdUnique(hs: seq<Household>, id: string)
    requires UniqueIds(hs)
    ensures CountId(hs, id) == if HouseholdIndex(hs, id).Some? then 1 else 0
  {
    if |hs| > 0 {
      var init := hs[..|hs| - 1];
      assert forall i :: 0 <= i < |init| ==> init[i] == hs[i];
      CountIdUnique(init, id);
    }
  }

  function TotalCredits(hs: seq<Household>): real {
    if |hs| == 0 then 0.0 else TotalCredits(hs[..|hs| - 1]) + hs[|hs| - 1].credits
  }

  /** Total credits only depend on the credits, position by position. */
  lemma {:induction false} TotalCreditsPointwise(a: seq<Household>, b: seq<Household>)
    requires |a| == |b|
    requires forall i :: 0 <= i < |a| ==> a[i].credits == b[i].credits
    ensures TotalCredits(a) == TotalCredits(b)
  {
    if |a| > 0 {
      TotalCreditsPointwise(a[..|a| - 1], b[..|b| - 1]);
    }
  }

  // ---------------------------------------------------------------------
  // Emergency floor

  function FloorCredits(credits: real): (r: real)
    ensures r >= MINIMUM_CREDIT_FLOOR
    ensures r == if credits < MINIMUM_CREDIT_FLOOR then MINIMUM_CREDIT_FLOOR else credits
  {
    if credits < MINIMUM_CREDIT_FLOOR then MINIMUM_CREDIT_FLOOR else credits
  }

  function Floored(h: Household): Household {
    h.(credits := FloorCredits(h.credits))
  }

  function FloorAll(hs: seq<Household>): (r: seq<Household>)
    ensures |r| == |hs|
  {
    seq(|hs|, i requires 0 <= i < |hs| => Floored(hs[i]))
  }

  /** Every household below the floor is raised to exactly the floor;
      every other household is left as it is. */
  lemma FloorAllShape(hs: seq<Household>)
    ensures forall i :: 0 <= i < |hs| ==> FloorAll(hs)[i].credits >= MINIMUM_CREDIT_FLOOR
    ensures forall i :: 0 <= i < |hs| && hs[i].credits >= MINIMUM_CREDIT_FLOOR ==> FloorAll(hs)[i] == hs[i]
    ensures forall i :: 0 <= i < |hs| && hs[i].credits < MINIMUM_CREDIT_FLOOR ==>
              FloorAll(hs)[i] == hs[i].(credits := MINIMUM_CREDIT_FLOOR)
  {
  }

  /** One `stabilization` entry, naming the household, for each household
      below the floor, in list order. */
  function StabilizationLogs(hs: seq<Household>): seq<SystemLog> {
    if |hs| == 0 then []
    else
      var h := hs[|hs| - 1];
      StabilizationLogs(hs[..|hs| - 1])
      + (if h.credits < MINIMUM_CREDIT_FLOOR then [SystemLog(StabilizationEvent, Some(h.id))] else [])
  }

  function CountBelowFloor(hs: seq<Household>): nat {
    if |hs| == 0 then 0
    else CountBelowFloor(hs[..|hs| - 1]) + (if hs[|hs| - 1].credits < MINIMUM_CREDIT_FLOOR then 1 else 0)
  }

  /** As many `stabilization` entries as raised households, each naming a
      raised household (`RaisedHouseholdsNamed` gives the converse). */
  lemma {:induction false} StabilizationLogsShape(hs: seq<Household>)
    ensures |StabilizationLogs(hs)| == CountBelowFloor(hs)
    ensures forall k :: 0 <= k < |StabilizationLogs(hs)| ==>
              StabilizationLogs(hs)[k].kind == StabilizationEvent
              && exists i :: 0 <= i < |hs| && hs[i].credits < MINIMUM_CREDIT_FLOOR
                             && StabilizationLogs(hs)[k].householdId == Some(hs[i].id)
    ensures CountBelowFloor(hs) == 0 <==> forall i :: 0 <= i < |hs| ==> hs[i].credits >= MINIMUM_CREDIT_FLOOR
  {
    if |hs| > 0 {
      var init := hs[..|hs| - 1];
      StabilizationLogsShape(init);
      assert forall i :: 0 <= i < |init| ==> init[i] == hs[i];
      var logs := StabilizationLogs(hs);
      forall k | 0 <= k < |logs|
        ensures logs[k].kind == StabilizationEvent
                && exists i :: 0 <= i < |hs| && hs[i].credits < MINIMUM_CREDIT_FLOOR
                               && logs[k].householdId == Some(hs[i].id)
      {
        if k < |StabilizationLogs(init)| {
          assert logs[k] == StabilizationLogs(init)[k];
        } else {
          assert logs[k].householdId == Some(hs[|hs| - 1].id);
        }
      }
    }
  }

  /** Some entry of `logs` names household `id`. */
  predicate Names(logs: seq<SystemLog>, id: string) {
    exists k :: 0 <= k < |logs| && logs[k].householdId == Some(id)
  }

  /** Every raised household is named by some `stabilization` entry. With
      `StabilizationLogsShape` and unique ids this is one entry per raised
      household. */
  lemma {:induction false} RaisedHouseholdsNamed(hs: seq<Household>)
    ensures forall i :: 0 <= i < |hs| && hs[i].credits < MINIMUM_CREDIT_FLOOR ==>
              Names(StabilizationLogs(hs), hs[i].id)
  {
    if |hs| > 0 {
      var init := hs[..|hs| - 1];
      RaisedHouseholdsNamed(init);
      var logs := StabilizationLogs(hs);
      var prev := StabilizationLogs(init);
      forall i | 0 <= i < |hs| && hs[i].credits < MINIMUM_CREDIT_FLOOR
        ensures Names(logs, hs[i].id)
      {
        if i < |init| {
          assert init[i] == hs[i];
          var k :| 0 <= k < |prev| && prev[k].householdId == Some(init[i].id);
          assert logs[k] == prev[k];
        } else {
          assert logs[|prev|].householdId == Some(hs[i].id);
        }
      }
    }
  }

  /** The floor pass: raises every household below the floor and appends
      one `stabilization` entry per raised household to `logs`;
      `activated` says whether any household was raised. */
  method ApplyEmergencyFloor(households: seq<Household>, logs: seq<SystemLog>)
    returns (updated: seq<Household>, logsOut: seq<SystemLog>, activated: bool)
    ensures updated == FloorAll(households)
    ensures logsOut == logs + StabilizationLogs(households)
    ensures activated <==> CountBelowFloor(households) > 0
  {
    activated := false;
    updated := [];
    logsOut := logs;
    var i := 0;
    while i < |households|
      invariant 0 <= i <= |households|
      invariant |updated| == i
      invariant forall j :: 0 <= j < i ==> updated[j] == Floored(households[j])
      invariant logsOut == logs + StabilizationLogs(households[..i])
      invariant activated <==> CountBelowFloor(households[..i]) > 0
    {
      var h := households[i];
      assert households[..i + 1][..i] == households[..i];
      if h.credits < MINIMUM_CREDIT_FLOOR {
        activated := true;
        logsOut := logsOut + [SystemLog(StabilizationEvent, Some(h.id))];
        updated := updated + [h.(credits := MINIMUM_CREDIT_FLOOR)];
      } else {
        updated := updated + [h];
      }
      i := i + 1;
    }
    assert households[..i] == households;
  }

  /** When nobody is below the floor the pass changes nothing. */
  lemma FloorAllIdentity(hs: seq<Household>)
    requires forall i :: 0 <= i < |hs| ==> hs[i].credits >= MINIMUM_CREDIT_FLOOR
    ensures FloorAll(hs) == hs
  {
  }

  /** The floor pass followed by the recomputation of derived fields, as
      every store action that moves credits ends. */
  function Stabilize(hs: seq<Household>): (r: seq<Household>)
    ensures |r| == |hs|
    ensures forall i :: 0 <= i < |r| ==> r[i].credits >= MINIMUM_CREDIT_FLOOR
    ensures Consistent(hs) ==> Settled(r)
  {
    InitializeHouseholds(FloorAll(hs))
  }

  /** Stabilizing floors each household's credits and keeps every
      other input field. */
  lemma StabilizeShape(hs: seq<Household>)
    ensures forall i :: 0 <= i < |hs| ==>
              Base(Stabilize(hs)[i]) == Base(hs[i].(credits := FloorCredits(hs[i].credits)))
  {
    var f := FloorAll(hs);
    assert forall i :: 0 <= i < |hs| ==> f[i] == hs[i].(credits := FloorCredits(hs[i].credits));
  }

  /** With nobody below the floor, stabilizing keeps every household's
      credits and so the total. */
  lemma StabilizeConserves(hs: seq<Household>)
    requires CountBelowFloor(hs) == 0
    ensures TotalCredits(Stabilize(hs)) == TotalCredits(hs)
  {
    StabilizationLogsShape(hs);
    StabilizeShape(hs);
    TotalCreditsPointwise(Stabilize(hs), hs);
  }

  // ---------------------------------------------------------------------
  // Credit moves (transfer and redistribution)

  /** The credit change a transfer makes to one household: the sender
      branch is tested first, so a household that is both sender and
      receiver is only debited. */
  function Moved(h: Household, fromId: string, toId: string, amount: real): Household {
    if h.id == fromId then h.(credits := h.credits - amount)
    else if h.id == toId then h.(credits := h.credits + amount)
    else h
  }

  function MoveCredits(hs: seq<Household>, fromId: string, toId: string, amount: real): (r: seq<Household>)
    ensures |r| == |hs|
    ensures Consistent(hs) ==> Consistent(r)
  {
    seq(|hs|, i requires 0 <= i < |hs| => Moved(hs[i], fromId, toId, amount))
  }

  /** `k` times `amount`, as a repeated sum. */
  function Times(k: nat, amount: real): real {
    if k == 0 then 0.0 else Times(k - 1, amount) + amount
  }

  /** A move debits `amount` from every sender and credits it to every
      receiver: total credits change by `amount` per receiver minus
      `amount` per sender, and a self-transfer only debits. */
  lemma {:induction false} MoveCreditsTotal(hs: seq<Household>, fromId: string, toId: string, amount: real)
    ensures TotalCredits(MoveCredits(hs, fromId, toId, amount)) + Times(CountId(hs, fromId), amount)
            == TotalCredits(hs) + (if fromId == toId then 0.0 else Times(CountId(hs, toId), amount))
  {
    if |hs| > 0 {
      var n := |hs| - 1;
      var init := hs[..n];
      var moved := MoveCredits(hs, fromId, toId, amount);
      assert moved[..n] == MoveCredits(init, fromId, toId, amount);
      MoveCreditsTotal(init, fromId, toId, amount);
    }
  }

  /** A transfer between two distinct households present once each
      conserves the total. */
  lemma MoveCreditsConserves(hs: seq<Household>, fromId: string, toId: string, amount: real)
    requires UniqueIds(hs) && fromId != toId
    requires HouseholdIndex(hs, fromId).Some? && HouseholdIndex(hs, toId).Some?
    ensures TotalCredits(MoveCredits(hs, fromId, toId, amount)) == TotalCredits(hs)
  {
    MoveCreditsTotal(hs, fromId, toId, amount);
    CountIdUnique(hs, fromId);
    CountIdUnique(hs, toId);
  }

  /** Between two distinct households present in a list with unique ids,
      the sender loses `amount`, the receiver gains it, and every other
      household, and every field other than the credits, is untouched. */
  lemma TransferMovesCredits(hs: seq<Household>, fromId: string, toId: string, amount: real)
    requires UniqueIds(hs) && fromId != toId
    requires HouseholdIndex(hs, fromId).Some? && HouseholdIndex(hs, toId).Some?
    ensures var r := MoveCredits(hs, fromId, toId, amount);
            var f := HouseholdIndex(hs, fromId).value;
            var t := HouseholdIndex(hs, toId).value;
            && r[f].credits == hs[f].credits - amount
            && r[t].credits == hs[t].credits + amount
            && (forall i :: 0 <= i < |hs| && i != f && i != t ==> r[i] == hs[i])
            && (forall i :: 0 <= i < |hs| ==> r[i] == hs[i].(credits := r[i].credits))
  {
    var r := MoveCredits(hs, fromId, toId, amount);
    var f := HouseholdIndex(hs, fromId).value;
    var t := HouseholdIndex(hs, toId).value;
    forall i | 0 <= i < |hs| && i != f && i != t ensures r[i] == hs[i] {
      assert hs[i].id != fromId && hs[i].id != toId;
    }
  }

  /** A transfer between two distinct households that leaves nobody
      below the floor conserves the total through the floor pass and the
      recomputation too. */
  lemma TransferConserves(hs: seq<Household>, fromId: string, toId: string, amount: real)
    requires UniqueIds(hs) && fromId != toId
    requires HouseholdIndex(hs, fromId).Some? && HouseholdIndex(hs, toId).Some?
    requires CountBelowFloor(MoveCredits(hs, fromId, toId, amount)) == 0
    ensures TotalCredits(Stabilize(MoveCredits(hs, fromId, toId, amount))) == TotalCredits(hs)
  {
    MoveCreditsConserves(hs, fromId, toId, amount);
    StabilizeConserves(MoveCredits(hs, fromId, toId, amount));
  }

  /** Self-transfer: the receiver branch never fires, so the household
      simply loses the amount and the total drops by it. */
  lemma SelfTransferOnlyDebits(hs: seq<Household>, id: string, amount: real)
    requires UniqueIds(hs) && HouseholdIndex(hs, id).Some?
    ensures var i := HouseholdIndex(hs, id).value;
            MoveCredits(hs, id, id, amount)[i].credits == hs[i].credits - amount
    ensures TotalCredits(MoveCredits(hs, id, id, amount)) == TotalCredits(hs) - amount
  {
    MoveCreditsTotal(hs, id, id, amount);
    CountIdUnique(hs, id);
  }

  // ---------------------------------------------------------------------
  // Labor tokenization

  /** One household after tokenizing `hours` of labor: 10 credits per
      hour, labor hours reduced but never below 0, derived fields
      recomputed, and the exit flag set exactly when the household was in
      extreme poverty before and is below the high-poverty line after. */
  function TokenizedHousehold(h: Household, hours: real): (r: Household)
    ensures r.credits == h.credits + 10.0 * hours
    ensures r.laborHours == Max(0.0, h.laborHours - hours) && r.laborHours >= 0.0
    ensures Fresh(r)
    ensures r.exitedPovertyThisCycle
            <==> h.povertyIndex > EXTREME_POVERTY_THRESHOLD && r.povertyIndex < HIGH_POVERTY_THRESHOLD
    ensures r.(credits := h.credits, laborHours := h.laborHours, povertyIndex := h.povertyIndex,
               creditDeficitRatio := h.creditDeficitRatio,
               exitedPovertyThisCycle := h.exitedPovertyThisCycle) == h
  {
    var updated := h.(credits := h.credits + hours * 10.0, laborHours := Max(0.0, h.laborHours - hours));
    var s := ComputePovertyIndex(updated);
    updated.(povertyIndex := s.povertyIndex, creditDeficitRatio := s.creditDeficitRatio,
             exitedPovertyThisCycle := h.povertyIndex > EXTREME_POVERTY_THRESHOLD
                                       && s.povertyIndex < HIGH_POVERTY_THRESHOLD)
  }

  /** Tokenizing and then the floor pass: ids are kept, the tokenizing
      household gains ten credits per hour, and every balance ends at or
      above the floor. */
  lemma TokenizeThenFloor(hs: seq<Household>, id: string, hours: real)
    ensures var r := Stabilize(Tokenize(hs, id, hours));
            && |r| == |hs|
            && forall i :: 0 <= i < |r| ==>
                 && r[i].id == hs[i].id
                 && r[i].credits == FloorCredits(if hs[i].id == id then hs[i].credits + 10.0 * hours
                                                 else hs[i].credits)
                 && r[i].credits >= MINIMUM_CREDIT_FLOOR
  {
    var tokenized := Tokenize(hs, id, hours);
    StabilizeShape(tokenized);
  }

  /** The celebration entry's test, which is looser than the exit flag. */
  predicate Celebrates(h: Household, hours: real) {
    h.povertyIndex > EXTREME_POVERTY_THRESHOLD
    && TokenizedHousehold(h, hours).povertyIndex <= EXTREME_POVERTY_THRESHOLD
  }

  function Tokenize(hs: seq<Household>, id: string, hours: real): (r: seq<Household>)
    ensures |r| == |hs|
    ensures Consistent(hs) ==> Consistent(r)
  {
    seq(|hs|, i requires 0 <= i < |hs| =>
      if hs[i].id == id then TokenizedHousehold(hs[i], hours) else hs[i])
  }

  /** A `labor` entry for each tokenized household, followed by an `info`
      entry when it leaves extreme poverty. */
  function LaborLogs(hs: seq<Household>, id: string, hours: real): seq<SystemLog> {
    if |hs| == 0 then []
    else
      var h := hs[|hs| - 1];
      LaborLogs(hs[..|hs| - 1], id, hours)
      + (if h.id == id
         then [SystemLog(LaborEvent, Some(h.id))]
              + (if Celebrates(h, hours) then [SystemLog(InfoEvent, Some(h.id))] else [])
         else [])
  }

  /** Every labor entry names the tokenizing household, and a missing
      household gets none. */
  lemma {:induction false} LaborLogsNameId(hs: seq<Household>, id: string, hours: real)
    ensures forall k :: 0 <= k < |LaborLogs(hs, id, hours)| ==> LaborLogs(hs, id, hours)[k].householdId == Some(id)
    ensures HouseholdIndex(hs, id).None? ==> LaborLogs(hs, id, hours) == []
  {
    if |hs| > 0 {
      var init := hs[..|hs| - 1];
      assert forall i :: 0 <= i < |init| ==> init[i] == hs[i];
      LaborLogsNameId(init, id, hours);
    }
  }

  /** A household present once gets its `labor` entry, followed by an
      `info` entry exactly when it is celebrated. */
  lemma {:induction false} LaborLogsOfPresent(hs: seq<Household>, id: string, hours: real)
    requires UniqueIds(hs) && HouseholdIndex(hs, id).Some?
    ensures LaborLogs(hs, id, hours)
            == [SystemLog(LaborEvent, Some(id))]
               + (if Celebrates(hs[HouseholdIndex(hs, id).value], hours) then [SystemLog(InfoEvent, Some(id))] else [])
  {
    var n := |hs| - 1;
    var init := hs[..n];
    assert forall i :: 0 <= i < |init| ==> init[i] == hs[i];
    assert UniqueIds(init);
    if hs[n].id == id {
      assert HouseholdIndex(init, id).None?;
      LaborLogsNameId(init, id, hours);
    } else {
      assert HouseholdIndex(init, id) == HouseholdIndex(hs, id);
      LaborLogsOfPresent(init, id, hours);
    }
  }

  /** The two thresholds disagree: a household can leave extreme poverty
      (and be celebrated) without its exit flag being set. Credits 50 and
      all risks at 1 give an index of 0.8; two hours of labor bring it to
      0.72. */
  lemma CelebrationWithoutExitFlag()
    ensures var h := Recalc(Seed("x", "x", 50.0, 2.0, 1.0, 1.0, 1.0, 0.5, [], "S"));
            Celebrates(h, 2.0) && !TokenizedHousehold(h, 2.0).exitedPovertyThisCycle
  {
  }

  // ---------------------------------------------------------------------
  // Bids

  predicate BidsUnique(bids: seq<Bid>) {
    forall a, b :: 0 <= a < b < |bids| ==> bids[a].householdId != bids[b].householdId
  }

  /** `bids.filter(b => b.householdId !== householdId)`. */
  function WithoutBidsOf(bids: seq<Bid>, householdId: string): (r: seq<Bid>)
    ensures forall b :: b in r <==> b in bids && b.householdId != householdId
  {
    if |bids| == 0 then []
    else (if bids[0].householdId == householdId then [] else [bids[0]])
         + WithoutBidsOf(bids[1..], householdId)
  }

  lemma {:induction false} WithoutBidsOfUnique(bids: seq<Bid>, householdId: string)
    ensures BidsUnique(bids) ==> BidsUnique(WithoutBidsOf(bids, householdId))
  {
    if |bids| > 0 && BidsUnique(bids) {
      var rest := bids[1..];
      assert BidsUnique(rest) by {
        forall a, b | 0 <= a < b < |rest| ensures rest[a].householdId != rest[b].householdId {
          assert rest[a] == bids[a + 1] && rest[b] == bids[b + 1];
        }
      }
      WithoutBidsOfUnique(rest, householdId);
      var tail := WithoutBidsOf(rest, householdId);
      if bids[0].householdId != householdId {
        forall x | x in tail ensures x.householdId != bids[0].householdId {
          var j :| 0 <= j < |rest| && rest[j] == x;
          assert bids[j + 1] == x;
        }
        var r := [bids[0]] + tail;
        forall a, b | 0 <= a < b < |r| ensures r[a].householdId != r[b].householdId {
          if a == 0 {
            assert r[b] in tail;
          } else {
            assert r[a] == tail[a - 1] && r[b] == tail[b - 1];
          }
        }
      }
    }
  }

  /** The task after `bid` is placed: the bidder's earlier bids are
      dropped, the new bid goes last, and under an equity override the task
      is allocated to the bidder. */
  function PlaceBid(t: Task, bid: Bid, isEquityOverride: bool): (r: Task)
    ensures BidsUnique(t.bids) ==> BidsUnique(r.bids)
    ensures |r.bids| > 0 && r.bids[|r.bids| - 1] == bid
    ensures forall k :: 0 <= k < |r.bids| - 1 ==> r.bids[k].householdId != bid.householdId
    ensures forall b :: b in r.bids ==> b == bid || b in t.bids
    ensures forall b :: b in t.bids && b.householdId != bid.householdId ==> b in r.bids
    ensures isEquityOverride ==>
              r.status == Allocated && r.allocatedTo == Some(bid.householdId) && r.equityOverride
    ensures !isEquityOverride ==>
              r.status == t.status && r.allocatedTo == t.allocatedTo && r.equityOverride == t.equityOverride
    ensures r.(bids := t.bids, status := t.status, allocatedTo := t.allocatedTo,
               equityOverride := t.equityOverride) == t
  {
    var kept := WithoutBidsOf(t.bids, bid.householdId);
    WithoutBidsOfUnique(t.bids, bid.householdId);
    var bids := kept + [bid];
    assert forall k :: 0 <= k < |bids| - 1 ==> bids[k] in kept;
    var updated := t.(bids := bids);
    if isEquityOverride then
      updated.(status := Allocated, allocatedTo := Some(bid.householdId), equityOverride := true)
    else updated
  }

  /** Every task carrying `id` is replaced by `t`. */
  function ReplaceTask(ts: seq<Task>, id: string, t: Task): (r: seq<Task>)
    ensures |r| == |ts|
  {
    seq(|ts|, i requires 0 <= i < |ts| => if ts[i].id == id then t else ts[i])
  }

  /** Placing a bid on the open task `taskId` touches that task only: the
      other tasks are kept, the bid goes last, and the task stays open
      unless the equity override allocates it to the bidder. */
  lemma BidTouchesOneTask(ts: seq<Task>, taskId: string, bid: Bid, isEquityOverride: bool)
    requires TaskIndex(ts, taskId).Some?
    ensures var k := TaskIndex(ts, taskId).value;
            var r := ReplaceTask(ts, taskId, PlaceBid(ts[k], bid, isEquityOverride));
            && (forall i :: 0 <= i < |ts| && ts[i].id != taskId ==> r[i] == ts[i])
            && r[k].id == taskId
            && r[k].bids[|r[k].bids| - 1] == bid
            && (ts[k].status == Open && !isEquityOverride ==> r[k].status == Open)
            && (isEquityOverride ==> r[k].status == Allocated && r[k].allocatedTo == Some(bid.householdId))
  {
    var k := TaskIndex(ts, taskId).value;
    var placed := PlaceBid(ts[k], bid, isEquityOverride);
    var r := ReplaceTask(ts, taskId, placed);
    assert r[k] == placed;
    forall i | 0 <= i < |ts| && ts[i].id != taskId ensures r[i] == ts[i] {
    }
  }

  // ---------------------------------------------------------------------
  // Shock

  predicate ShockCandidate(h: Household) { h.povertyIndex > 0.3 }

  function ShockRisk(h: Household): real { h.shockExposureRisk }

  /** The household a shock hits: among those with index above 0.3, the
      first one of maximal shock exposure. */
  function ShockTarget(hs: seq<Household>): (r: Option<nat>)
    ensures r.None? <==> forall i :: 0 <= i < |hs| ==> hs[i].povertyIndex <= 0.3
    ensures r.Some? ==> r.value < |hs| && hs[r.value].povertyIndex > 0.3
    ensures r.Some? ==> forall j :: 0 <= j < |hs| && hs[j].povertyIndex > 0.3 ==>
              hs[j].shockExposureRisk <= hs[r.value].shockExposureRisk
    ensures r.Some? ==> forall j :: 0 <= j < r.value && hs[j].povertyIndex > 0.3 ==>
              hs[j].shockExposureRisk < hs[r.value].shockExposureRisk
  {
    FirstMax(hs, ShockCandidate, ShockRisk)
  }

  /** `Math.floor(credits * 0.3)`. */
  function CreditLoss(credits: real): (r: real)
    ensures credits >= 0.0 ==> 0.0 <= r <= 0.3 * credits
  {
    (credits * 0.3).Floor as real
  }

  /** Every household with the target's id loses the target's credit loss
      (floored at 0) and has its shock exposure raised by 0.1 (capped at 1)
      and `lastShocked` set; every other household has `lastShocked`
      cleared. */
  function ShockHit(hs: seq<Household>, target: Household): (r: seq<Household>)
    ensures |r| == |hs|
    ensures Consistent(hs) ==> Consistent(r)
    ensures forall i :: 0 <= i < |hs| && hs[i].id != target.id ==> r[i] == hs[i].(lastShocked := false)
    ensures forall i :: 0 <= i < |hs| && hs[i].id == target.id ==>
              && r[i].credits == Max(0.0, hs[i].credits - CreditLoss(target.credits))
              && r[i].shockExposureRisk == Min(1.0, hs[i].shockExposureRisk + 0.1)
              && r[i].lastShocked
              && r[i].(credits := hs[i].credits, shockExposureRisk := hs[i].shockExposureRisk,
                       lastShocked := hs[i].lastShocked) == hs[i]
  {
    var loss := CreditLoss(target.credits);
    seq(|hs|, i requires 0 <= i < |hs| =>
      if hs[i].id == target.id
      then hs[i].(credits := Max(0.0, hs[i].credits - loss), lastShocked := true,
                  shockExposureRisk := Min(1.0, hs[i].shockExposureRisk + 0.1))
      else hs[i].(lastShocked := false))
  }

  /** A shock on a household holding 50 credits costs it 15 credits and
      leaves 35, which the floor pass raises back to 60. */
  lemma ShockOnFiftyCredits()
    ensures CreditLoss(50.0) == 15.0
    ensures Max(0.0, 50.0 - CreditLoss(50.0)) == 35.0
    ensures FloorCredits(35.0) == MINIMUM_CREDIT_FLOOR
  {
  }

  // ---------------------------------------------------------------------
  // Redistribution advisor

  predicate AboveOverride(h: Household) { h.povertyIndex > EQUITY_OVERRIDE_THRESHOLD }

  function PovertyOf(h: Household): real { h.povertyIndex }

  /** The household redistribution helps: the first one of maximal index
      among those above the equity-override threshold. */
  ghost predicate IsRedistributionTarget(hs: seq<Household>, t: nat) {
    && t < |hs|
    && hs[t].povertyIndex > EQUITY_OVERRIDE_THRESHOLD
    && (forall j :: 0 <= j < |hs| && hs[j].povertyIndex > EQUITY_OVERRIDE_THRESHOLD ==>
          hs[j].povertyIndex <= hs[t].povertyIndex)
    && (forall j :: 0 <= j < t && hs[j].povertyIndex > EQUITY_OVERRIDE_THRESHOLD ==>
          hs[j].povertyIndex < hs[t].povertyIndex)
  }

  function HighestPovertyTarget(hs: seq<Household>): (r: Option<nat>)
    ensures r.None? <==> forall i :: 0 <= i < |hs| ==> hs[i].povertyIndex <= EQUITY_OVERRIDE_THRESHOLD
    ensures r.Some? ==> IsRedistributionTarget(hs, r.value)
  {
    FirstMax(hs, AboveOverride, PovertyOf)
  }

  /** A household that may give: not the target, index below 0.4 and more
      than 50 credits. */
  predicate IsDonor(h: Household, targetId: string) {
    h.id != targetId && h.povertyIndex < 0.4 && h.credits > 50.0
  }

  /** The first donor of maximal credits. */
  ghost predicate IsBestDonor(hs: seq<Household>, targetId: string, d: nat) {
    && d < |hs|
    && IsDonor(hs[d], targetId)
    && (forall j :: 0 <= j < |hs| && IsDonor(hs[j], targetId) ==> hs[j].credits <= hs[d].credits)
    && (forall j :: 0 <= j < d && IsDonor(hs[j], targetId) ==> hs[j].credits < hs[d].credits)
  }

  function DonorFor(hs: seq<Household>, targetId: string): (r: Option<nat>)
    ensures r.None? <==> forall j :: 0 <= j < |hs| ==> !IsDonor(hs[j], targetId)
    ensures r.Some? ==> IsBestDonor(hs, targetId, r.value)
  {
    FirstMax(hs, (h: Household) => IsDonor(h, targetId), (h: Household) => h.credits)
  }

  /** `Math.min(cap, Math.floor(credits * rate))`. */
  function RedistributionAmount(credits: real, cap: real, rate: real): (r: real)
    ensures r <= cap && r <= credits * rate
  {
    Min(cap, (credits * rate).Floor as real)
  }

  /** For a donor (more than 50 credits) both rates in use give a positive
      amount that the donor can cover. */
  lemma RedistributionAmountBounds(credits: real)
    requires credits > 50.0
    ensures 0.0 < RedistributionAmount(credits, 30.0, 0.2) <= credits
    ensures 0.0 < RedistributionAmount(credits, 25.0, 0.15) <= credits
  {
    assert (credits * 0.2).Floor >= 10;
    assert (credits * 0.15).Floor >= 7;
  }

  datatype Suggestion = Suggestion(fromId: string, toId: string, amount: real)

  ghost predicate SuggestionShape(hs: seq<Household>, t: nat, d: nat, s: Suggestion) {
    && IsRedistributionTarget(hs, t)
    && IsBestDonor(hs, hs[t].id, d)
    && s.fromId == hs[d].id && s.toId == hs[t].id
    && s.amount == RedistributionAmount(hs[d].credits, 30.0, 0.2)
    && 0.0 < s.amount <= hs[d].credits
  }

  /** The advisor: move min(30, floor(20%)) of the best donor's credits to
      the household of highest index above 0.7. Nothing is suggested when
      no household is above 0.7 or when no donor qualifies for that
      household. */
  function GetAISuggestion(hs: seq<Household>): (r: Option<Suggestion>)
    ensures (forall i :: 0 <= i < |hs| ==> hs[i].povertyIndex <= EQUITY_OVERRIDE_THRESHOLD) ==> r.None?
    ensures r.Some? ==> r.value.fromId != r.value.toId
    ensures r.Some? ==> exists t: nat, d: nat :: SuggestionShape(hs, t, d, r.value)
    ensures r.None? ==>
              (forall i :: 0 <= i < |hs| ==> hs[i].povertyIndex <= EQUITY_OVERRIDE_THRESHOLD)
              || exists t: nat :: IsRedistributionTarget(hs, t)
                             && forall j :: 0 <= j < |hs| ==> !IsDonor(hs[j], hs[t].id)
  {
    match HighestPovertyTarget(hs)
    case None => None
    case Some(t) =>
      match DonorFor(hs, hs[t].id)
      case None => None
      case Some(d) =>
        var s := Suggestion(hs[d].id, hs[t].id, RedistributionAmount(hs[d].credits, 30.0, 0.2));
        RedistributionAmountBounds(hs[d].credits);
        assert SuggestionShape(hs, t, d, s);
        Some(s)
  }

  /** The seed community: household h5 (index 0.88) is helped by h2 (120
      credits, index 0.15) with 24 credits. */
  lemma InitialSuggestion()
    ensures GetAISuggestion(InitializeHouseholds(INITIAL_HOUSEHOLDS)) == Some(Suggestion("h2", "h5", 24.0))
  {
    var hs := InitializeHouseholds(INITIAL_HOUSEHOLDS);
    InitialTarget();
    InitialDonor();
    assert hs[4].id == "h5" && hs[1].id == "h2" && hs[1].credits == 120.0;
    assert (120.0 * 0.2).Floor == 24;
  }

  /** In the seed community the household with the highest index above
      0.7 is h5, at position 4. */
  lemma InitialTarget()
    ensures HighestPovertyTarget(InitializeHouseholds(INITIAL_HOUSEHOLDS)) == Some(4)
  {
    var hs := InitializeHouseholds(INITIAL_HOUSEHOLDS);
    InitialIndices();
    var t := HighestPovertyTarget(hs).value;
    assert IsRedistributionTarget(hs, t);
    assert hs[t].povertyIndex >= hs[4].povertyIndex;
  }

  /** In the seed community the richest donor for h5 is h2, at position 1. */
  lemma InitialDonor()
    ensures var hs := InitializeHouseholds(INITIAL_HOUSEHOLDS);
            && hs[4].id == "h5" && hs[1].id == "h2" && hs[1].credits == 120.0
            && DonorFor(hs, "h5") == Some(1)
  {
    var hs := InitializeHouseholds(INITIAL_HOUSEHOLDS);
    InitialIndices();
    assert forall i :: 0 <= i < 5 ==> Base(hs[i]) == Base(INITIAL_HOUSEHOLDS[i]);
    assert hs[1].id == "h2" && hs[1].credits == 120.0;
    assert hs[3].id == "h4" && hs[3].credits == 85.0;
    assert hs[4].id == "h5";
    var d := DonorFor(hs, "h5").value;
    assert IsDonor(hs[1], "h5");
    assert IsBestDonor(hs, "h5", d);
  }


  /** An automatic redistribution: the planned transfer from the best
      donor to household `t`, with `amount = min(cap, floor(credits *
      rate))`, or nothing when no donor qualifies or the amount is not
      positive. */
  function RedistributionPlan(hs: seq<Household>, t: nat, cap: real, rate: real): (p: Option<Transfer>)
    requires t < |hs|
    ensures p.Some? ==> p.value.toId == hs[t].id && p.value.aiSuggested && p.value.amount > 0.0
    ensures p.Some? ==> exists d: nat :: IsBestDonor(hs, hs[t].id, d) && p.value.fromId == hs[d].id
                                    && p.value.amount == RedistributionAmount(hs[d].credits, cap, rate)
    ensures (forall j :: 0 <= j < |hs| ==> !IsDonor(hs[j], hs[t].id)) ==> p.None?
    ensures (exists j :: 0 <= j < |hs| && IsDonor(hs[j], hs[t].id)) && cap >= 1.0 && rate >= 0.15 ==> p.Some?
  {
    match DonorFor(hs, hs[t].id)
    case None => None
    case Some(d) =>
      var amount := RedistributionAmount(hs[d].credits, cap, rate);
      if amount > 0.0 then Some(Transfer(hs[d].id, hs[t].id, amount, true))
      else
        AmountPositive(hs[d].credits, cap, rate);
        None
  }

  /** Any cap of at least 1 and rate of at least 15% give a donor (more
      than 50 credits) a positive amount. */
  lemma AmountPositive(credits: real, cap: real, rate: real)
    requires credits > 50.0
    ensures cap >= 1.0 && rate >= 0.15 ==> RedistributionAmount(credits, cap, rate) > 0.0
  {
    if cap >= 1.0 && rate >= 0.15 {
      assert (credits - 50.0) * rate >= 0.0;
      assert credits * rate >= 7.5;
      assert (credits * rate).Floor >= 7;
    }
  }

  /** A planned transfer moves its amount from the best donor to the
      target and changes nobody else. */
  lemma PlanMovesCredits(hs: seq<Household>, t: nat, cap: real, rate: real)
    requires UniqueIds(hs) && t < |hs|
    requires RedistributionPlan(hs, t, cap, rate).Some?
    ensures var p := RedistributionPlan(hs, t, cap, rate).value;
            var r := ApplyPlan(hs, RedistributionPlan(hs, t, cap, rate));
            exists d: nat :: && IsBestDonor(hs, hs[t].id, d) && p.fromId == hs[d].id
                             && r[d].credits == hs[d].credits - p.amount
                             && r[t].credits == hs[t].credits + p.amount
                             && forall i :: 0 <= i < |hs| && i != d && i != t ==> r[i] == hs[i]
  {
    var p := RedistributionPlan(hs, t, cap, rate).value;
    var d: nat :| IsBestDonor(hs, hs[t].id, d) && p.fromId == hs[d].id;
    var r := MoveCredits(hs, hs[d].id, hs[t].id, p.amount);
    assert ApplyPlan(hs, RedistributionPlan(hs, t, cap, rate)) == r;
    assert r[d] == Moved(hs[d], hs[d].id, hs[t].id, p.amount);
    assert r[t] == Moved(hs[t], hs[d].id, hs[t].id, p.amount);
    forall i | 0 <= i < |hs| && i != d && i != t ensures r[i] == hs[i] {
      assert hs[i].id != hs[d].id && hs[i].id != hs[t].id;
      assert r[i] == Moved(hs[i], hs[d].id, hs[t].id, p.amount);
    }
  }

  function ApplyPlan(hs: seq<Household>, p: Option<Transfer>): (r: seq<Household>)
    ensures |r| == |hs|
    ensures forall i :: 0 <= i < |hs| ==> r[i] == hs[i].(credits := r[i].credits)
    ensures Consistent(hs) ==> Consistent(r)
  {
    if p.None? then hs else MoveCredits(hs, p.value.fromId, p.value.toId, p.value.amount)
  }

  /** The redistribution step of a cycle: 15% of the donor's credits, at
      most 25, to the household of highest index above 0.7. */
  function CyclePlan(hs: seq<Household>): (p: Option<Transfer>)
    ensures (forall i :: 0 <= i < |hs| ==> hs[i].povertyIndex <= EQUITY_OVERRIDE_THRESHOLD) ==> p.None?
    ensures p.Some? <==> && HighestPovertyTarget(hs).Some?
                         && exists j :: 0 <= j < |hs| && IsDonor(hs[j], hs[HighestPovertyTarget(hs).value].id)
    ensures p.Some? ==>
              && HighestPovertyTarget(hs).Some?
              && p.value.toId == hs[HighestPovertyTarget(hs).value].id
              && p.value.aiSuggested && 0.0 < p.value.amount <= 25.0
              && exists d: nat :: IsBestDonor(hs, p.value.toId, d) && p.value.fromId == hs[d].id
                                  && p.value.amount == RedistributionAmount(hs[d].credits, 25.0, 0.15)
  {
    match HighestPovertyTarget(hs)
    case None => None
    case Some(t) => RedistributionPlan(hs, t, 25.0, 0.15)
  }

  /** No floor pass follows an automatic redistribution: on a list where
      `a` is the target, a donor holding 65 credits gives 13 under the
      shock's rates (or 9 under the cycle's) and ends below the floor. */
  lemma RedistributionCanBreachFloor()
    ensures var hs := InitializeHouseholds([Seed("a", "a", 0.0, 0.0, 1.0, 1.0, 1.0, 0.5, [], "S"),
                                            Seed("b", "b", 65.0, 0.0, 0.0, 0.0, 0.0, 0.5, [], "S")]);
            && RedistributionPlan(hs, 0, 30.0, 0.2).Some?
            && ApplyPlan(hs, RedistributionPlan(hs, 0, 30.0, 0.2))[1].credits == 52.0
            && CyclePlan(hs).Some?
            && ApplyPlan(hs, CyclePlan(hs))[1].credits == 56.0
  {
    var hs := InitializeHouseholds([Seed("a", "a", 0.0, 0.0, 1.0, 1.0, 1.0, 0.5, [], "S"),
                                    Seed("b", "b", 65.0, 0.0, 0.0, 0.0, 0.0, 0.5, [], "S")]);
    assert hs[0].povertyIndex == 1.0 && hs[1].povertyIndex == 0.14;
    assert HighestPovertyTarget(hs) == Some(0);
    assert DonorFor(hs, "a") == Some(1);
    assert (65.0 * 0.2).Floor == 13;
    assert (65.0 * 0.15).Floor == 9;
  }

  // ---------------------------------------------------------------------
  // Shock outcome

  /** The households right after the shock on household `t` and the floor
      pass. */
  function ShockBase(before: seq<Household>, t: nat): (r: seq<Household>)
    requires t < |before|
    ensures |r| == |before|
    ensures Consistent(before) ==> Settled(r)
  {
    Stabilize(ShockHit(before, before[t]))
  }

  /** The automatic redistribution to the shocked household, when the
      engine is on: 20% of the best donor's credits, at most 30. */
  function ShockPlan(before: seq<Household>, t: nat, aiEnabled: bool): (p: Option<Transfer>)
    requires t < |before|
    ensures p.Some? ==> aiEnabled && p.value.toId == before[t].id && p.value.amount > 0.0
    ensures p.Some? <==> aiEnabled && exists j :: 0 <= j < |before| && IsDonor(ShockBase(before, t)[j], before[t].id)
    ensures p.Some? ==> && p.value.aiSuggested && p.value.amount <= 30.0
                        && exists d: nat :: && IsBestDonor(ShockBase(before, t), before[t].id, d)
                                            && p.value.fromId == ShockBase(before, t)[d].id
                                            && p.value.amount == RedistributionAmount(ShockBase(before, t)[d].credits, 30.0, 0.2)
  {
    if aiEnabled then RedistributionPlan(ShockBase(before, t), t, 30.0, 0.2) else None
  }

  /** The households after a shock on household `t`: the shock, the floor
      pass, then the automatic redistribution if one is planned. */
  function ShockedHouseholds(before: seq<Household>, t: nat, aiEnabled: bool): (r: seq<Household>)
    requires t < |before|
    ensures |r| == |before|
    ensures Consistent(before) ==> Settled(r)
  {
    var base := ShockBase(before, t);
    var plan := ShockPlan(before, t, aiEnabled);
    if plan.Some? then
      var moved := ApplyPlan(base, plan);
      RecalcSettles(moved);
      InitializeHouseholds(moved)
    else base
  }

  /** After a shock on household `t` only the target is marked as last
      shocked, its exposure has risen by 0.1 (capped at 1), ids and labor
      hours are kept, and every household is at or above the floor unless
      an automatic redistribution followed. */
  lemma ShockedHouseholdsShape(before: seq<Household>, t: nat, aiEnabled: bool)
    requires t < |before|
    ensures var r := ShockedHouseholds(before, t, aiEnabled);
            && (forall i :: 0 <= i < |r| ==>
                  && r[i].id == before[i].id && r[i].laborHours == before[i].laborHours
                  && (r[i].lastShocked <==> before[i].id == before[t].id))
            && r[t].shockExposureRisk == Min(1.0, before[t].shockExposureRisk + 0.1)
            && (ShockPlan(before, t, aiEnabled).None? ==>
                  forall i :: 0 <= i < |r| ==> r[i].credits >= MINIMUM_CREDIT_FLOOR)
  {
    var base := ShockBase(before, t);
    ShockBaseShape(before, t);
    var plan := ShockPlan(before, t, aiEnabled);
    if plan.Some? {
      PlanKeepsRecords(base, plan);
    }
  }

  /** A planned redistribution followed by the recomputation changes
      credits and the derived fields only. */
  lemma PlanKeepsRecords(hs: seq<Household>, plan: Option<Transfer>)
    ensures var r := InitializeHouseholds(ApplyPlan(hs, plan));
            forall i :: 0 <= i < |r| ==>
              && r[i].id == hs[i].id && r[i].laborHours == hs[i].laborHours
              && r[i].lastShocked == hs[i].lastShocked
              && r[i].shockExposureRisk == hs[i].shockExposureRisk
  {
    var moved := ApplyPlan(hs, plan);
    var r := InitializeHouseholds(moved);
    assert forall i :: 0 <= i < |r| ==> Base(r[i]) == Base(moved[i]);
  }

  /** The shock-and-floor step alone: ids, labor hours and the target's
      raised exposure are as `ShockHit` left them, and the floor holds.
      Households other than the target keep their exposure, and their
      credits are their old credits, floored. */
  lemma ShockBaseShape(before: seq<Household>, t: nat)
    requires t < |before|
    ensures var base := ShockBase(before, t);
            && (forall i :: 0 <= i < |base| ==>
                  && base[i].id == before[i].id && base[i].laborHours == before[i].laborHours
                  && (base[i].lastShocked <==> before[i].id == before[t].id)
                  && base[i].credits >= MINIMUM_CREDIT_FLOOR)
            && base[t].shockExposureRisk == Min(1.0, before[t].shockExposureRisk + 0.1)
    ensures var base := ShockBase(before, t);
            forall i :: 0 <= i < |base| ==>
              && base[i].credits
                 == FloorCredits(if before[i].id == before[t].id
                                 then Max(0.0, before[i].credits - CreditLoss(before[t].credits))
                                 else before[i].credits)
              && (before[i].id != before[t].id ==>
                    base[i].shockExposureRisk == before[i].shockExposureRisk)
  {
    var hit := ShockHit(before, before[t]);
    StabilizeShape(hit);
  }

  /** The shocked household keeps `c - floor(0.3 c)` of its `c` credits
      (never less than 0), raised to the floor if that falls below it. */
  lemma ShockTargetCredits(before: seq<Household>, t: nat)
    requires t < |before|
    ensures var c := before[t].credits;
            ShockBase(before, t)[t].credits == FloorCredits(Max(0.0, c - CreditLoss(c)))
  {
    var hit := ShockHit(before, before[t]);
    StabilizeShape(hit);
    assert hit[t].credits == Max(0.0, before[t].credits - CreditLoss(before[t].credits));
  }

  // ---------------------------------------------------------------------
  // Cycle

  /** The random terms of one household's drift in a cycle. */
  datatype Drift = Drift(incomeBump: real, laborDecay: real, laborGain: real, instabilityDelta: real)

  /** `incomeBump = 2 + 8u`, `laborDecay = min(laborHours, 2u)`,
      `laborGain = 3u` and `instabilityDelta = 0.05 (u - 0.55)` for draws
      `u` in [0, 1). */
  predicate DriftInRange(d: Drift, laborHours: real) {
    && 2.0 <= d.incomeBump < 10.0
    && 0.0 <= d.laborDecay <= laborHours && d.laborDecay < 2.0
    && 0.0 <= d.laborGain < 3.0
    && -0.0275 <= d.instabilityDelta < 0.0225
  }

  /** The draws of the source, each in [0, 1), give drift terms in range
      for a household with non-negative labor hours. */
  lemma DriftFromDraws(u1: real, u2: real, u3: real, u4: real, laborHours: real)
    requires 0.0 <= u1 < 1.0 && 0.0 <= u2 < 1.0 && 0.0 <= u3 < 1.0 && 0.0 <= u4 < 1.0
    requires laborHours >= 0.0
    ensures DriftInRange(Drift(u1 * 8.0 + 2.0, Min(laborHours, u2 * 2.0), u3 * 3.0, (u4 - 0.55) * 0.05),
                         laborHours)
  {
  }

  /** One household's drift: the income bump is added to its credits,
      labor hours grow by the decay and gain terms, instability moves by
      its delta but never below 0, and nothing else changes. With terms in
      range the household gains between 2 and 10 credits. */
  function Drifted(h: Household, d: Drift): (r: Household)
    ensures r.credits == h.credits + d.incomeBump
    ensures r.laborHours == h.laborHours + d.laborDecay + d.laborGain
    ensures r.incomeInstabilityScore == Max(0.0, h.incomeInstabilityScore + d.instabilityDelta)
    ensures r.incomeInstabilityScore >= 0.0
    ensures DriftInRange(d, h.laborHours) ==>
              h.credits + 2.0 <= r.credits < h.credits + 10.0 && r.laborHours >= h.laborHours
    ensures r.(credits := h.credits, laborHours := h.laborHours,
               incomeInstabilityScore := h.incomeInstabilityScore) == h
  {
    h.(credits := h.credits + d.incomeBump,
       laborHours := h.laborHours + d.laborDecay + d.laborGain,
       incomeInstabilityScore := Max(0.0, h.incomeInstabilityScore + d.instabilityDelta))
  }

  function ApplyDrift(hs: seq<Household>, drift: seq<Drift>): (r: seq<Household>)
    requires |drift| == |hs|
    ensures |r| == |hs|
    ensures forall i :: 0 <= i < |hs| ==>
              r[i].credits == hs[i].credits + drift[i].incomeBump
              && r[i].incomeInstabilityScore == Max(0.0, hs[i].incomeInstabilityScore + drift[i].instabilityDelta)
              && r[i].id == hs[i].id
  {
    seq(|hs|, i requires 0 <= i < |hs| => Drifted(hs[i], drift[i]))
  }

  /** The households at the end of a cycle: the optional redistribution,
      then the drift, then the recomputation (see `CycleHouseholdsShape`). */
  function CycleHouseholds(before: seq<Household>, aiEnabled: bool, drift: seq<Drift>): (r: seq<Household>)
    requires |drift| == |before|
    ensures |r| == |before|
    ensures Consistent(before) ==>
              (forall i :: 0 <= i < |drift| ==> drift[i].laborDecay >= 0.0 && drift[i].laborGain >= 0.0) ==>
              Settled(r)
  {
    var moved := ApplyPlan(before, if aiEnabled then CyclePlan(before) else None);
    var drifted := ApplyDrift(moved, drift);
    RecalcSettles(drifted);
    InitializeHouseholds(drifted)
  }

  /** Ids are kept through a cycle, and labor hours only grow by the
      drift's decay and gain terms. */
  lemma CycleHouseholdsShape(before: seq<Household>, aiEnabled: bool, drift: seq<Drift>)
    requires |drift| == |before|
    ensures var r := CycleHouseholds(before, aiEnabled, drift);
            forall i :: 0 <= i < |r| ==>
              r[i].id == before[i].id
              && r[i].laborHours == before[i].laborHours + drift[i].laborDecay + drift[i].laborGain
  {
    var moved := ApplyPlan(before, if aiEnabled then CyclePlan(before) else None);
    var drifted := ApplyDrift(moved, drift);
    var r := InitializeHouseholds(drifted);
    assert forall i :: 0 <= i < |r| ==> Base(r[i]) == Base(drifted[i]);
  }

  /** Through a cycle every household gains its income bump on top of the
      redistribution (on top of its old credits when the engine is off),
      and its instability moves by its delta but never below 0. */
  lemma CycleDriftShape(before: seq<Household>, aiEnabled: bool, drift: seq<Drift>)
    requires |drift| == |before|
    ensures var moved := ApplyPlan(before, if aiEnabled then CyclePlan(before) else None);
            var r := CycleHouseholds(before, aiEnabled, drift);
            forall i :: 0 <= i < |r| ==>
              && r[i].credits == moved[i].credits + drift[i].incomeBump
              && (!aiEnabled ==> r[i].credits == before[i].credits + drift[i].incomeBump)
              && r[i].incomeInstabilityScore
                 == Max(0.0, before[i].incomeInstabilityScore + drift[i].instabilityDelta)
              && r[i].incomeInstabilityScore >= 0.0
  {
    var moved := ApplyPlan(before, if aiEnabled then CyclePlan(before) else None);
    var drifted := ApplyDrift(moved, drift);
    var r := InitializeHouseholds(drifted);
    assert forall i :: 0 <= i < |r| ==> Base(r[i]) == Base(drifted[i]);
  }

  /** Positions of the households whose index is above `threshold`. */
  ghost function AboveIndices(hs: seq<Household>, threshold: real): set<int> {
    set i | 0 <= i < |hs| && hs[i].povertyIndex > threshold
  }

  /** Positions of the households whose exit flag is set. */
  ghost function ExitedIndices(hs: seq<Household>): set<int> {
    set i | 0 <= i < |hs| && hs[i].exitedPovertyThisCycle
  }

  /** `filter(h => h.povertyIndex > threshold).length`: none counted iff
      nobody is above, all counted iff everybody is. */
  function CountAbove(hs: seq<Household>, threshold: real): (r: nat)
    ensures r <= |hs|
    ensures r == 0 <==> forall i :: 0 <= i < |hs| ==> hs[i].povertyIndex <= threshold
    ensures r == |hs| <==> forall i :: 0 <= i < |hs| ==> hs[i].povertyIndex > threshold
  {
    if |hs| == 0 then 0
    else
      var init := hs[..|hs| - 1];
      assert forall i :: 0 <= i < |init| ==> init[i] == hs[i];
      CountAbove(init, threshold) + (if hs[|hs| - 1].povertyIndex > threshold then 1 else 0)
  }

  /** Extending a list by one household adds its position to the set
      exactly when it is above the threshold. */
  lemma AboveIndicesStep(hs: seq<Household>, threshold: real)
    requires |hs| > 0
    ensures |AboveIndices(hs, threshold)|
            == |AboveIndices(hs[..|hs| - 1], threshold)| + (if hs[|hs| - 1].povertyIndex > threshold then 1 else 0)
  {
    var n := |hs| - 1;
    var before := AboveIndices(hs[..n], threshold);
    var last: set<int> := if hs[n].povertyIndex > threshold then {n} else {};
    forall i | i in AboveIndices(hs, threshold) ensures i in before + last {
      if i < n { assert hs[..n][i] == hs[i]; }
    }
    forall i | i in before + last ensures i in AboveIndices(hs, threshold) {
      if i < n { assert hs[..n][i] == hs[i]; }
    }
    assert AboveIndices(hs, threshold) == before + last;
    assert n !in before;
  }

  /** The count is the number of households above the threshold. */
  lemma {:induction false} CountAboveCounts(hs: seq<Household>, threshold: real)
    ensures CountAbove(hs, threshold) == |AboveIndices(hs, threshold)|
  {
    if |hs| > 0 {
      CountAboveCounts(hs[..|hs| - 1], threshold);
      AboveIndicesStep(hs, threshold);
    }
  }

  /** `filter(h => h.exitedPovertyThisCycle).length`: none counted iff no
      flag is set, all counted iff every flag is. */
  function CountExited(hs: seq<Household>): (r: nat)
    ensures r <= |hs|
    ensures r == 0 <==> forall i :: 0 <= i < |hs| ==> !hs[i].exitedPovertyThisCycle
    ensures r == |hs| <==> forall i :: 0 <= i < |hs| ==> hs[i].exitedPovertyThisCycle
  {
    if |hs| == 0 then 0
    else
      var init := hs[..|hs| - 1];
      assert forall i :: 0 <= i < |init| ==> init[i] == hs[i];
      CountExited(init) + (if hs[|hs| - 1].exitedPovertyThisCycle then 1 else 0)
  }

  /** Extending a list by one household adds its position to the set
      exactly when its exit flag is set. */
  lemma ExitedIndicesStep(hs: seq<Household>)
    requires |hs| > 0
    ensures |ExitedIndices(hs)|
            == |ExitedIndices(hs[..|hs| - 1])| + (if hs[|hs| - 1].exitedPovertyThisCycle then 1 else 0)
  {
    var n := |hs| - 1;
    var before := ExitedIndices(hs[..n]);
    var last: set<int> := if hs[n].exitedPovertyThisCycle then {n} else {};
    forall i | i in ExitedIndices(hs) ensures i in before + last {
      if i < n { assert hs[..n][i] == hs[i]; }
    }
    forall i | i in before + last ensures i in ExitedIndices(hs) {
      if i < n { assert hs[..n][i] == hs[i]; }
    }
    assert ExitedIndices(hs) == before + last;
    assert n !in before;
  }

  /** The exited count is the number of households whose flag is set. */
  lemma {:induction false} CountExitedCounts(hs: seq<Household>)
    ensures CountExited(hs) == |ExitedIndices(hs)|
  {
    if |hs| > 0 {
      CountExitedCounts(hs[..|hs| - 1]);
      ExitedIndicesStep(hs);
    }
  }

  /** A count over a population of the same or greater size is a share in [0, 1]. */
  lemma ShareAtMostOne(c: real, n: real)
    requires 0.0 <= c <= n && n > 0.0
    ensures 0.0 <= c / n <= 1.0
  {
    assert c / n * n == c;
  }

  /** `c` out of `n` as a percentage: 0 exactly for none, 100 exactly for all. */
  lemma Percentage(c: real, n: real)
    requires 0.0 <= c <= n && n > 0.0
    ensures var r := (c / n) * 100.0;
            && 0.0 <= r <= 100.0 && r * n == 100.0 * c
            && (r == 0.0 <==> c == 0.0) && (r == 100.0 <==> c == n)
  {
    ShareAtMostOne(c, n);
    assert c / n * n == c;
  }

  /** Percentage of households above the high-poverty threshold. */
  function PovertyRate(hs: seq<Household>): (r: real)
    requires |hs| > 0
    ensures 0.0 <= r <= 100.0
    ensures r == (|AboveIndices(hs, HIGH_POVERTY_THRESHOLD)| as real / |hs| as real) * 100.0
  {
    var count := CountAbove(hs, HIGH_POVERTY_THRESHOLD);
    var c := count as real;
    var n := |hs| as real;
    Percentage(c, n);
    CountAboveCounts(hs, HIGH_POVERTY_THRESHOLD);
    (c / n) * 100.0
  }

  /** The rate is 0 exactly when nobody is above the high-poverty
      threshold, and 100 exactly when everybody is. */
  lemma PovertyRateExtremes(hs: seq<Household>)
    requires |hs| > 0
    ensures PovertyRate(hs) == 0.0 <==> forall i :: 0 <= i < |hs| ==> hs[i].povertyIndex <= HIGH_POVERTY_THRESHOLD
    ensures PovertyRate(hs) == 100.0 <==> forall i :: 0 <= i < |hs| ==> hs[i].povertyIndex > HIGH_POVERTY_THRESHOLD
  {
    var count := CountAbove(hs, HIGH_POVERTY_THRESHOLD);
    Percentage(count as real, |hs| as real);
    assert PovertyRate(hs) == (count as real / |hs| as real) * 100.0;
  }

  /** The trend point a cycle records: the rounded rate, the number of
      households above the extreme threshold, the resilience score and the
      mean index rounded to two decimals. */
  function TrendPointFor(hs: seq<Household>, cycle: int): (p: PovertyTrendPoint)
    requires |hs| > 0
    ensures p.cycle == cycle && 0 <= p.resilienceScore
    ensures IndicesInUnit(hs) ==> p.resilienceScore <= 100
    ensures 0.0 <= p.povertyRate <= 100.0
    ensures p.povertyRate == Round(PovertyRate(hs)) as real
    ensures p.extremePovertyCount == |AboveIndices(hs, EXTREME_POVERTY_THRESHOLD)| <= |hs|
    ensures p.resilienceScore == ComputeResilienceScore(hs)
    ensures p.avgPovertyIndex == Round(MeanPovertyIndex(hs) * 100.0) as real / 100.0
  {
    var rate := PovertyRate(hs);
    CountAboveCounts(hs, EXTREME_POVERTY_THRESHOLD);
    PovertyTrendPoint(cycle, Round(rate) as real, CountAbove(hs, EXTREME_POVERTY_THRESHOLD),
                      ComputeResilienceScore(hs), Round(MeanPovertyIndex(hs) * 100.0) as real / 100.0)
  }

  /** How far the rate fell since the last recorded point (whose rate is
      rounded), never negative. */
  function PovertyReduction(trend: seq<PovertyTrendPoint>, rate: real): (r: real)
    ensures r >= 0.0
    ensures |trend| == 0 ==> r == 0.0
    ensures |trend| > 0 && r > 0.0 ==> r == trend[|trend| - 1].povertyRate - rate
    ensures |trend| > 0 ==> r >= trend[|trend| - 1].povertyRate - rate
  {
    var prevRate := if |trend| > 0 then trend[|trend| - 1].povertyRate else rate;
    Max(0.0, prevRate - rate)
  }

  /** The previous rate is rounded and the current one is not: with two of
      three households poor in two consecutive cycles, the stored 67 is
      compared against 66.67 and a reduction of 1/3 is recorded although
      nothing changed. */
  lemma RoundedRateComparison()
    ensures var rate := 200.0 / 3.0;
            var last := PovertyTrendPoint(1, Round(rate) as real, 0, 0, 0.0);
            PovertyReduction([last], rate) == 1.0 / 3.0
  {
    assert Round(200.0 / 3.0) == 67;
  }

  // ---------------------------------------------------------------------
  // CECS jobs

  function JobTemplate(title: string, category: JobCategory, description: string, credits: real,
                       cashPayment: real, coupon: string, proof: ProofKind): CECSJob
  {
    CECSJob("", title, category, description, credits, cashPayment, [coupon], "", Pending, Some(proof),
            None, None)
  }

  const JOB_TEMPLATES: seq<CECSJob> := [
    JobTemplate("Waste Segregation Drive", Sanitation, "Monthly segregation of community waste.",
                25.0, 15.0, "GROCERY-5", Photo),
    JobTemplate("Public Sanitation Cleaning", Sanitation, "Cleaning of community common areas.",
                30.0, 20.0, "GEN-10", Gps),
    JobTemplate("Recycling Sorting Initiative", Environment, "Sorting recyclable materials for processing.",
                20.0, 10.0, "GREEN-5", Photo),
    JobTemplate("Tree Plantation Program", Environment, "Planting and nurturing local saplings.",
                40.0, 25.0, "ECO-15", Photo),
    JobTemplate("Local Survey Assistance", Social, "Aiding in household data collection.",
                15.0, 30.0, "SOCIAL-5", Attendance)
  ]

  /** The batch a sector activation creates: one active job per template,
      with the given ids and the sector, and every other field (title,
      category, credits, cash, coupons, proof kind) as in its template. */
  function NewJobs(sector: string, ids: seq<string>): (r: seq<CECSJob>)
    requires |ids| == |JOB_TEMPLATES|
    ensures |r| == |JOB_TEMPLATES|
    ensures forall k :: 0 <= k < |r| ==>
              r[k].status == Active && r[k].sector == sector && r[k].id == ids[k] && r[k].credits > 0.0
    ensures forall k :: 0 <= k < |r| ==>
              r[k] == JOB_TEMPLATES[k].(id := r[k].id, sector := r[k].sector, status := r[k].status)
  {
    seq(|JOB_TEMPLATES|, k requires 0 <= k < |JOB_TEMPLATES| =>
      JOB_TEMPLATES[k].(id := ids[k], sector := sector, status := Active))
  }

  /** Every household carrying `id` receives `amount` credits. */
  function PayHousehold(hs: seq<Household>, id: string, amount: real): (r: seq<Household>)
    ensures |r| == |hs|
    ensures forall i :: 0 <= i < |hs| ==> r[i] == hs[i].(credits := r[i].credits)
    ensures forall i :: 0 <= i < |hs| ==>
              r[i].credits == if hs[i].id == id then hs[i].credits + amount else hs[i].credits
    ensures Consistent(hs) ==> Consistent(r)
  {
    seq(|hs|, i requires 0 <= i < |hs| =>
      if hs[i].id == id then hs[i].(credits := hs[i].credits + amount) else hs[i])
  }

  /** A job payout followed by the recomputation: the assignee receives
      the job's credits, every other household keeps its credits, and the
      total rises by the payout exactly when the assignee is present (once). */
  lemma PayoutGoesToAssignee(hs: seq<Household>, id: string, amount: real)
    requires UniqueIds(hs)
    ensures var r := InitializeHouseholds(PayHousehold(hs, id, amount));
            && (HouseholdIndex(hs, id).Some? ==>
                  r[HouseholdIndex(hs, id).value].credits == hs[HouseholdIndex(hs, id).value].credits + amount)
            && (forall i :: 0 <= i < |hs| && hs[i].id != id ==> r[i].credits == hs[i].credits)
            && (forall i :: 0 <= i < |hs| ==> r[i].id == hs[i].id)
  {
    var paid := PayHousehold(hs, id, amount);
    var r := InitializeHouseholds(paid);
    assert forall i :: 0 <= i < |r| ==> Base(r[i]) == Base(paid[i]);
  }

  /** Every job with the id becomes verified, assigned to the household
      and carries the proof; the others are untouched. */
  function SubmitProof(js: seq<CECSJob>, jobId: string, householdId: string, proof: string): (r: seq<CECSJob>)
    ensures |r| == |js|
    ensures forall k :: 0 <= k < |js| && js[k].id == jobId ==>
              r[k].status == Verified && r[k].assignedTo == Some(householdId)
              && r[k].submissionProof == Some(proof)
    ensures forall k :: 0 <= k < |js| ==>
              r[k] == js[k].(status := r[k].status, assignedTo := r[k].assignedTo,
                             submissionProof := r[k].submissionProof)
    ensures forall k :: 0 <= k < |js| && js[k].id != jobId ==> r[k] == js[k]
  {
    seq(|js|, k requires 0 <= k < |js| =>
      if js[k].id == jobId
      then js[k].(status := Verified, assignedTo := Some(householdId), submissionProof := Some(proof))
      else js[k])
  }

  /** Every job with the id becomes completed; nothing else changes. */
  function CompleteJob(js: seq<CECSJob>, jobId: string): (r: seq<CECSJob>)
    ensures |r| == |js|
    ensures forall k :: 0 <= k < |js| && js[k].id == jobId ==> r[k].status == JobStatus.Completed
    ensures forall k :: 0 <= k < |js| ==> r[k] == js[k].(status := r[k].status)
    ensures forall k :: 0 <= k < |js| && js[k].id != jobId ==> r[k] == js[k]
  {
    seq(|js|, k requires 0 <= k < |js| =>
      if js[k].id == jobId then js[k].(status := JobStatus.Completed) else js[k])
  }
}

=== FILE: seqs.dfy ===
/** Sequence helpers shared by the scoring engine and the store: the
    first element satisfying a test (`Array.prototype.find`), the first
    element of maximal key among those satisfying a test (a `filter`
    followed by a stable descending `sort` and `[0]`), and the bounded
    slices the store keeps its histories in. */
module Seqs {
  import opened Types

  /** Index of the first element satisfying `p`, if any. */
  function FindIndex<T>(s: seq<T>, p: T -> bool): (r: Option<nat>)
    ensures r.None? <==> forall i :: 0 <= i < |s| ==> !p(s[i])
    ensures r.Some? ==> r.value < |s| && p(s[r.value])
    ensures r.Some? ==> forall j :: 0 <= j < r.value ==> !p(s[j])
  {
    if |s| == 0 then None
    else if p(s[0]) then Some(0)
    else match FindIndex(s[1..], p) {
      case None => None
      case Some(k) => Some(k + 1)
    }
  }

  /** The element a stable descending sort by `key` puts first, among the
      elements satisfying `ok`: it has a maximal key, and every earlier
      element that satisfies `ok` has a strictly smaller key. */
  ghost predicate IsFirstMax<T>(s: seq<T>, ok: T -> bool, key: T -> real, m: nat) {
    && m < |s|
    && ok(s[m])
    && (forall j :: 0 <= j < |s| && ok(s[j]) ==> key(s[j]) <= key(s[m]))
    && (forall j :: 0 <= j < m && ok(s[j]) ==> key(s[j]) < key(s[m]))
  }

  function FirstMax<T>(s: seq<T>, ok: T -> bool, key: T -> real): (r: Option<nat>)
    ensures r.None? <==> forall j :: 0 <= j < |s| ==> !ok(s[j])
    ensures r.Some? ==> IsFirstMax(s, ok, key, r.value)
  {
    if |s| == 0 then None
    else
      var last := |s| - 1;
      var prev := FirstMax(s[..last], ok, key);
      assert forall j :: 0 <= j < last ==> s[..last][j] == s[j];
      if !ok(s[last]) then prev
      else if prev.None? then Some(last)
      else if key(s[last]) > key(s[prev.value]) then Some(last)
      else prev
  }

  /** `s.slice(0, n)`. */
  function Take<T>(s: seq<T>, n: nat): (r: seq<T>)
    ensures |r| <= n && |r| <= |s|
    ensures r == s[..|r|]
    ensures |s| <= n ==> r == s
    ensures n <= |s| ==> |r| == n
  {
    if |s| <= n then s else s[..n]
  }

  /** `s.slice(-n)` for a positive `n`: the last `n` elements. */
  function LastN<T>(s: seq<T>, n: nat): (r: seq<T>)
    requires n > 0
    ensures |r| <= n && |r| <= |s|
    ensures r == s[|s| - |r|..]
    ensures |s| <= n ==> r == s
    ensures n <= |s| ==> |r| == n
  {
    if |s| <= n then s else s[|s| - n..]
  }
}

=== FILE: store.dfy ===
/** The simulation store: one object holding the community's state, with
    one method per action. Each action reads the current fields, computes
    the new ones with the rules of `Ledger` and `Engine`, and assigns them
    in one step. Random draws and generated ids are parameters. */
module Store {
  import opened Types
  import opened Seqs
  import opened Engine
  import opened Ledger

  const MAX_LOGS: nat := 100
  const MAX_TRANSFERS: nat := 50
  const MAX_TREND_POINTS: nat := 20

  /** A bid goes through when both the household and the task exist, the
      task is open, and the household holds at least the amount. */
  predicate BidAccepted(hs: seq<Household>, ts: seq<Task>, taskId: string, householdId: string,
                        amount: real)
  {
    && HouseholdIndex(hs, householdId).Some?
    && TaskIndex(ts, taskId).Some?
    && ts[TaskIndex(ts, taskId).value].status == Open
    && hs[HouseholdIndex(hs, householdId).value].credits >= amount
  }

  /** A transfer goes through when both households exist and the sender
      holds at least the amount. */
  predicate TransferAccepted(hs: seq<Household>, fromId: string, toId: string, amount: real) {
    && HouseholdIndex(hs, fromId).Some?
    && HouseholdIndex(hs, toId).Some?
    && hs[HouseholdIndex(hs, fromId).value].credits >= amount
  }

  /** The log entries a shock adds after the `shock` entry and the floor
      entries: the automatic redistribution when the engine is on,
      otherwise the advisor's recommendation, computed on the households
      as they were before the shock. */
  function ShockAdviceLogs(before: seq<Household>, targetId: string, aiEnabled: bool,
                           plan: Option<Transfer>): (r: seq<SystemLog>)
    ensures |r| <= 1 && forall k :: 0 <= k < |r| ==> r[k].kind == RedistributionEvent
    ensures aiEnabled ==> (|r| == 1 <==> plan.Some?) && (|r| == 1 ==> r[0].householdId == Some(targetId))
    ensures !aiEnabled ==> (|r| == 1 <==> GetAISuggestion(before).Some?)
    ensures !aiEnabled && |r| == 1 ==> r[0].householdId == Some(GetAISuggestion(before).value.toId)
  {
    if aiEnabled then
      (if plan.Some? then [SystemLog(RedistributionEvent, Some(targetId))] else [])
    else
      match GetAISuggestion(before)
      case None => []
      case Some(s) => [SystemLog(RedistributionEvent, Some(s.toId))]
  }

  /** The fields a shock on household `t` rewrites. */
  datatype ShockStep = ShockStep(households: seq<Household>, transfers: seq<Transfer>,
                                 logs: seq<SystemLog>, fundActive: bool)

  /** A shock on household `t`: the shock and the floor pass, the
      automatic redistribution when the engine is on (recorded as a
      transfer), the `shock` log entry followed by the floor pass's and the
      advice entries, and the emergency flag raised exactly when the floor
      pass lifted someone. */
  function ShockOutcome(before: seq<Household>, t: nat, aiEnabled: bool,
                        transfers: seq<Transfer>, logs: seq<SystemLog>): (r: ShockStep)
    requires t < |before|
    ensures Consistent(before) ==> Settled(r.households)
    ensures |r.households| == |before|
    ensures |transfers| <= MAX_TRANSFERS ==> |r.transfers| <= MAX_TRANSFERS
  {
    var target := before[t];
    var hit := ShockHit(before, target);
    var plan := ShockPlan(before, t, aiEnabled);
    ShockStep(
      ShockedHouseholds(before, t, aiEnabled),
      if plan.Some? then Take([plan.value] + transfers, MAX_TRANSFERS) else transfers,
      Take([SystemLog(ShockEvent, Some(target.id))] + StabilizationLogs(hit)
           + ShockAdviceLogs(before, target.id, aiEnabled, plan) + logs, MAX_LOGS),
      CountBelowFloor(hit) > 0)
  }

  /** What a shock records: the emergency flag is raised iff the shock left
      someone below the floor; the newest log entry is the `shock` entry
      naming the target; the planned redistribution, if any, is the newest
      transfer, and without one the transfers are unchanged. */
  lemma ShockOutcomeRecords(before: seq<Household>, t: nat, aiEnabled: bool,
                            transfers: seq<Transfer>, logs: seq<SystemLog>)
    requires t < |before|
    ensures var r := ShockOutcome(before, t, aiEnabled, transfers, logs);
            var hit := ShockHit(before, before[t]);
            && (r.fundActive <==> exists i :: 0 <= i < |hit| && hit[i].credits < MINIMUM_CREDIT_FLOOR)
            && |r.logs| > 0 && r.logs[0] == SystemLog(ShockEvent, Some(before[t].id))
    ensures var r := ShockOutcome(before, t, aiEnabled, transfers, logs);
            var plan := ShockPlan(before, t, aiEnabled);
            && (plan.Some? ==> |r.transfers| > 0 && r.transfers[0] == plan.value
                               && r.transfers[0].toId == before[t].id)
            && (plan.None? ==> r.transfers == transfers)
            && (!aiEnabled ==> r.transfers == transfers)
  {
    StabilizationLogsShape(ShockHit(before, before[t]));
  }

  /** Two households: `a` (index 0.58, shock exposure 0.9) and a rich,
      stable `b`. */
  const ADVICE_EXAMPLE: seq<Household> :=
    InitializeHouseholds([Seed("a", "a", 100.0, 0.0, 1.0, 1.0, 0.9, 0.5, [], "S"),
                          Seed("b", "b", 200.0, 0.0, 0.0, 0.0, 0.0, 0.5, [], "S")])

  /** On two households where only the first is above 0.3, the first is
      the shock target. */
  lemma ShockTargetOfPair(hs: seq<Household>)
    requires |hs| == 2 && hs[0].povertyIndex > 0.3 && hs[1].povertyIndex <= 0.3
    ensures ShockTarget(hs) == Some(0)
  {
    var r := ShockTarget(hs);
    assert r.Some?;
    assert r.value != 1;
  }

  /** On two households with neither above 0.7 there is no advice. */
  lemma NoSuggestionForCalmPair(hs: seq<Household>)
    requires |hs| == 2 && hs[0].povertyIndex <= 0.7 && hs[1].povertyIndex <= 0.7
    ensures GetAISuggestion(hs).None?
  {
    assert forall i :: 0 <= i < |hs| ==> hs[i].povertyIndex <= EQUITY_OVERRIDE_THRESHOLD;
  }

  /** On two households where only the first is above 0.7, the first is
      the redistribution target. */
  lemma TargetOfPair(hs: seq<Household>)
    requires |hs| == 2 && hs[0].povertyIndex > 0.7 && hs[1].povertyIndex <= 0.7
    ensures HighestPovertyTarget(hs) == Some(0)
  {
    var t := HighestPovertyTarget(hs);
    assert t.Some?;
    assert t.value != 1;
  }

  /** On two households where only the second may give to the first, the
      second is the best donor. */
  lemma DonorOfPair(hs: seq<Household>)
    requires |hs| == 2 && IsDonor(hs[1], hs[0].id) && !IsDonor(hs[0], hs[0].id)
    ensures DonorFor(hs, hs[0].id) == Some(1)
  {
    var d := DonorFor(hs, hs[0].id);
    assert d.Some?;
    assert d.value != 0;
  }

  /** On two households where `a` is the only one above 0.7 and `b` a
      donor with 200 credits, the advice moves the 30-credit cap. */
  lemma SuggestionOnPair(hs: seq<Household>)
    requires |hs| == 2 && hs[0].id == "a" && hs[1].id == "b"
    requires hs[0].povertyIndex == 0.72 && hs[1].povertyIndex == 0.0 && hs[1].credits == 200.0
    ensures GetAISuggestion(hs) == Some(Suggestion("b", "a", 30.0))
  {
    TargetOfPair(hs);
    DonorOfPair(hs);
    assert (200.0 * 0.2).Floor == 40;
  }

  /** The example's recomputed fields: `a` has index 0.58, `b` index 0. */
  lemma AdviceExampleFields()
    ensures var hs := ADVICE_EXAMPLE;
            && |hs| == 2 && hs[0].id == "a" && hs[1].id == "b"
            && hs[0].credits == 100.0 && hs[0].shockExposureRisk == 0.9 && hs[1].credits == 200.0
            && hs[0].povertyIndex == 0.58 && hs[1].povertyIndex == 0.0
            && hs[0].incomeInstabilityScore == 1.0 && hs[0].dependencyRatio == 1.0
            && hs[1].incomeInstabilityScore == 0.0 && hs[1].dependencyRatio == 0.0
            && hs[1].shockExposureRisk == 0.0
  {
    var hs := ADVICE_EXAMPLE;
    assert hs[0].povertyIndex == 0.58 && hs[1].povertyIndex == 0.0;
  }

  /** Before the shock nobody is above 0.7, so there is no advice; `a` is
      the shock target. */
  lemma AdviceExampleBefore()
    ensures var hs := ADVICE_EXAMPLE;
            && |hs| == 2 && hs[0].id == "a" && hs[1].id == "b"
            && hs[0].credits == 100.0 && hs[0].shockExposureRisk == 0.9 && hs[1].credits == 200.0
            && hs[0].povertyIndex == 0.58 && hs[1].povertyIndex == 0.0
            && ShockTarget(hs) == Some(0)
            && GetAISuggestion(hs).None?
  {
    AdviceExampleFields();
    ShockTargetOfPair(ADVICE_EXAMPLE);
    NoSuggestionForCalmPair(ADVICE_EXAMPLE);
  }

  /** The floor pass and recomputation on two households above the floor:
      `a` (70 credits, every risk at 1) gets index 0.72 and `b` (200
      credits, no risk) index 0; nobody is raised. */
  lemma StabilizePair(hit: seq<Household>)
    requires |hit| == 2 && hit[0].id == "a" && hit[1].id == "b"
    requires hit[0].credits == 70.0 && hit[0].incomeInstabilityScore == 1.0
             && hit[0].dependencyRatio == 1.0 && hit[0].shockExposureRisk == 1.0
    requires hit[1].credits == 200.0 && hit[1].incomeInstabilityScore == 0.0
             && hit[1].dependencyRatio == 0.0 && hit[1].shockExposureRisk == 0.0
    ensures var base := Stabilize(hit);
            && |base| == 2 && base[0].id == "a" && base[1].id == "b"
            && base[0].credits == 70.0 && base[1].credits == 200.0
            && base[0].povertyIndex == 0.72 && base[1].povertyIndex == 0.0
    ensures StabilizationLogs(hit) == []
  {
    StabilizeShape(hit);
    assert hit[..1][..0] == [];
    assert StabilizationLogs(hit[..1]) == [];
  }

  /** The shock leaves `a` with 70 credits, exposure 1 and index 0.72;
      nobody falls below the floor. */
  lemma AdviceExampleShocked()
    ensures var base := ShockBase(ADVICE_EXAMPLE, 0);
            && |base| == 2 && base[0].id == "a" && base[1].id == "b"
            && base[0].credits == 70.0 && base[1].credits == 200.0
            && base[0].povertyIndex == 0.72 && base[1].povertyIndex == 0.0
            && StabilizationLogs(ShockHit(ADVICE_EXAMPLE, ADVICE_EXAMPLE[0])) == []
  {
    AdviceExampleFields();
    var hs := ADVICE_EXAMPLE;
    var hit := ShockHit(hs, hs[0]);
    assert CreditLoss(100.0) == 30.0;
    assert hit[0].credits == 70.0 && hit[0].shockExposureRisk == 1.0;
    StabilizePair(hit);
  }

  /** On the shocked households the advice would move 30 credits from `b`
      to `a`. */
  lemma AdviceExampleAfter()
    ensures GetAISuggestion(ShockBase(ADVICE_EXAMPLE, 0)) == Some(Suggestion("b", "a", 30.0))
  {
    AdviceExampleShocked();
    SuggestionOnPair(ShockBase(ADVICE_EXAMPLE, 0));
  }

  /** Without the automatic engine the advice is computed on the
      households as they were before the shock: although the shocked `a`
      would be advised help from `b`, the shock logs no advice. */
  lemma AdviceUsesPreShockState()
    ensures GetAISuggestion(ADVICE_EXAMPLE).None?
    ensures GetAISuggestion(ShockBase(ADVICE_EXAMPLE, 0)).Some?
    ensures ShockOutcome(ADVICE_EXAMPLE, 0, false, [], []).logs == [SystemLog(ShockEvent, Some("a"))]
  {
    AdviceExampleBefore();
    AdviceExampleShocked();
    AdviceExampleAfter();
  }

  class AllocareStore {
    var households: seq<Household>
    var tasks: seq<Task>
    var transfers: seq<Transfer>
    var trendData: seq<PovertyTrendPoint>
    var systemLogs: seq<SystemLog>
    var cycle: int
    var emergencyFundActive: bool
    var householdsExitedThisCycle: nat
    var totalPovertyReduction: real
    var aiRedistributionEnabled: bool
    var emergencyFundBalance: real
    var cecsJobs: seq<CECSJob>

    /** The state every action keeps: a non-empty population with unique
        ids and up-to-date derived fields, non-negative labor hours, bounded
        histories, a positive cycle counter, a non-negative cumulative
        reduction and at most one bid per household on every task. */
    ghost predicate Valid()
      reads this`households, this`transfers, this`trendData, this`cycle,
            this`totalPovertyReduction, this`tasks
    {
      && |households| > 0
      && Settled(households)
      && |transfers| <= MAX_TRANSFERS
      && |trendData| <= MAX_TREND_POINTS
      && cycle >= 1
      && totalPovertyReduction >= 0.0
      && (forall k :: 0 <= k < |tasks| ==> BidsUnique(tasks[k].bids))
    }

    constructor()
      ensures Valid()
      ensures households == InitializeHouseholds(INITIAL_HOUSEHOLDS) && tasks == INITIAL_TASKS
      ensures transfers == [] && trendData == [] && cecsJobs == []
      ensures systemLogs == [SystemLog(InfoEvent, None), SystemLog(InfoEvent, None)]
      ensures cycle == 1 && householdsExitedThisCycle == 0 && totalPovertyReduction == 0.0
      ensures !emergencyFundActive && !aiRedistributionEnabled && emergencyFundBalance == 50000.0
    {
      households := InitializeHouseholds(INITIAL_HOUSEHOLDS);
      tasks := INITIAL_TASKS;
      transfers := [];
      trendData := [];
      systemLogs := [SystemLog(InfoEvent, None), SystemLog(InfoEvent, None)];
      cycle := 1;
      emergencyFundActive := false;
      householdsExitedThisCycle := 0;
      totalPovertyReduction := 0.0;
      aiRedistributionEnabled := false;
      emergencyFundBalance := 50000.0;
      cecsJobs := [];
      new;
      InitialSettled();
    }

    /** Newest entry first, at most `MAX_LOGS` kept. */
    method AddLog(log: SystemLog)
      modifies this`systemLogs
      ensures systemLogs == Take([log] + old(systemLogs), MAX_LOGS)
      ensures systemLogs[0] == log && |systemLogs| <= MAX_LOGS
      ensures systemLogs[1..] == Take(old(systemLogs), MAX_LOGS - 1)
    {
      systemLogs := Take([log] + systemLogs, MAX_LOGS);
    }

    method FundEmergencyPool(amount: real)
      modifies this`emergencyFundBalance, this`systemLogs
      ensures emergencyFundBalance == old(emergencyFundBalance) + amount
      ensures systemLogs == [SystemLog(StabilizationEvent, None)] + old(systemLogs)
    {
      emergencyFundBalance := emergencyFundBalance + amount;
      systemLogs := [SystemLog(StabilizationEvent, None)] + systemLogs;
    }

    method EnableAIRedistribution()
      modifies this`aiRedistributionEnabled, this`systemLogs
      ensures aiRedistributionEnabled == !old(aiRedistributionEnabled)
      ensures systemLogs == Take([SystemLog(InfoEvent, None)] + old(systemLogs), MAX_LOGS)
    {
      aiRedistributionEnabled := !aiRedistributionEnabled;
      systemLogs := Take([SystemLog(InfoEvent, None)] + systemLogs, MAX_LOGS);
    }

    /** Recomputes every household's derived fields; on a valid state
        nothing changes. */
    method RecalculateAll()
      requires Valid()
      modifies this`households
      ensures Valid()
      ensures households == InitializeHouseholds(old(households))
      ensures households == old(households)
    {
      households := InitializeHouseholds(households);
    }

    /** Labor tokenization, followed by the floor pass and a
        recomputation of the derived fields. */
    method TokenizeLabor(householdId: string, hours: real := 1.0)
      requires Valid()
      modifies this`households, this`transfers, this`systemLogs
      ensures Valid()
      ensures transfers == old(transfers)
      ensures var tokenized := Tokenize(old(households), householdId, hours);
              && households == Stabilize(tokenized)
              && systemLogs == Take(LaborLogs(old(households), householdId, hours)
                                    + StabilizationLogs(tokenized) + old(systemLogs), MAX_LOGS)
    {
      var before := households;
      var tokenized := Tokenize(before, householdId, hours);
      // the floor pass's `activated` flag is not read by this action
      var floored, floorLogs, _ := ApplyEmergencyFloor(tokenized, []);
      Install(InitializeHouseholds(floored), transfers,
              Take(LaborLogs(before, householdId, hours) + floorLogs + systemLogs, MAX_LOGS));
    }

    /** A bid on an open task. Under an equity override (the bidder's
        index above 0.7) the task is allocated to the bidder at once. */
    method SubmitBid(taskId: string, householdId: string, amount: real)
      requires Valid()
      modifies this`tasks, this`systemLogs
      ensures Valid()
      ensures !BidAccepted(old(households), old(tasks), taskId, householdId, amount) ==>
                tasks == old(tasks) && systemLogs == old(systemLogs)
      ensures BidAccepted(old(households), old(tasks), taskId, householdId, amount) ==>
                var h := households[HouseholdIndex(households, householdId).value];
                var task := old(tasks)[TaskIndex(old(tasks), taskId).value];
                var bid := Bid(householdId, amount,
                               ComputeAllocationScore(amount, h.centralityScore, h.povertyIndex));
                var isOverride := h.povertyIndex > EQUITY_OVERRIDE_THRESHOLD;
                && tasks == ReplaceTask(old(tasks), taskId, PlaceBid(task, bid, isOverride))
                && systemLogs == Take([SystemLog(if isOverride then EquityOverrideEvent else BidEvent,
                                                 Some(householdId))] + old(systemLogs), MAX_LOGS)
      ensures BidAccepted(old(households), old(tasks), taskId, householdId, amount)
              && households[HouseholdIndex(households, householdId).value].povertyIndex
                 > EQUITY_OVERRIDE_THRESHOLD ==>
                var k := TaskIndex(old(tasks), taskId).value;
                tasks[k].status == Allocated && tasks[k].allocatedTo == Some(householdId)
    {
      var hi := HouseholdIndex(households, householdId);
      var ti := TaskIndex(tasks, taskId);
      if hi.None? || ti.None? || tasks[ti.value].status != Open {
        return;
      }
      var h := households[hi.value];
      if h.credits < amount {
        return;
      }
      var task := tasks[ti.value];
      var bid := Bid(householdId, amount, ComputeAllocationScore(amount, h.centralityScore, h.povertyIndex));
      var isOverride := h.povertyIndex > EQUITY_OVERRIDE_THRESHOLD;
      var updatedTask := PlaceBid(task, bid, isOverride);
      var kind := if isOverride then EquityOverrideEvent else BidEvent;
      tasks := ReplaceTask(tasks, taskId, updatedTask);
      systemLogs := Take([SystemLog(kind, Some(householdId))] + systemLogs, MAX_LOGS);
    }

    /** A credit transfer, followed by the floor pass. A transfer between
        two distinct households that leaves nobody below the floor
        conserves the community's total credits. */
    method TransferCredits(fromId: string, toId: string, amount: real, aiSuggested: bool := false)
      requires Valid()
      modifies this`households, this`transfers, this`systemLogs
      ensures Valid()
      ensures !TransferAccepted(old(households), fromId, toId, amount) ==>
                households == old(households) && transfers == old(transfers) && systemLogs == old(systemLogs)
      ensures TransferAccepted(old(households), fromId, toId, amount) ==>
                var moved := MoveCredits(old(households), fromId, toId, amount);
                && households == Stabilize(moved)
                && transfers == Take([Transfer(fromId, toId, amount, aiSuggested)] + old(transfers), MAX_TRANSFERS)
                && systemLogs == Take([SystemLog(TransferEvent, Some(toId))] + StabilizationLogs(moved)
                                      + old(systemLogs), MAX_LOGS)
      ensures TransferAccepted(old(households), fromId, toId, amount) ==>
                forall i :: 0 <= i < |households| ==> households[i].credits >= MINIMUM_CREDIT_FLOOR
      ensures TransferAccepted(old(households), fromId, toId, amount) && fromId != toId
              && CountBelowFloor(MoveCredits(old(households), fromId, toId, amount)) == 0 ==>
                TotalCredits(households) == TotalCredits(old(households))
    {
      var before := households;
      var fi := HouseholdIndex(households, fromId);
      var ti := HouseholdIndex(households, toId);
      if fi.None? || ti.None? || households[fi.value].credits < amount {
        return;
      }
      var moved := MoveCredits(before, fromId, toId, amount);
      var floorLogs := StabilizationLogs(moved);
      assert Consistent(moved);
      var newTransfers := Take([Transfer(fromId, toId, amount, aiSuggested)] + transfers, MAX_TRANSFERS);
      var logs := Take([SystemLog(TransferEvent, Some(toId))] + floorLogs + systemLogs, MAX_LOGS);
      if fromId != toId && CountBelowFloor(moved) == 0 {
        TransferConserves(before, fromId, toId, amount);
      }
      Install(Stabilize(moved), newTransfers, logs);
    }

    /** The outcome of a shock, shared by `SimulateShock` and
        `TriggerShock`. With no household above index 0.3 nothing changes.
        Otherwise the target loses 30% of its credits (rounded down, never
        below 0), its shock exposure rises by 0.1 (at most 1), it alone is
        marked as last shocked, the floor pass runs, and either an
        automatic redistribution to the target follows or the advisor's
        recommendation is logged. */
    twostate predicate ShockApplied()
      reads this
    {
      match ShockTarget(old(households))
      case None =>
        && households == old(households) && transfers == old(transfers)
        && systemLogs == old(systemLogs) && emergencyFundActive == old(emergencyFundActive)
      case Some(t) =>
        var step := ShockOutcome(old(households), t, old(aiRedistributionEnabled),
                                 old(transfers), old(systemLogs));
        && households == step.households && transfers == step.transfers
        && systemLogs == step.logs && emergencyFundActive == step.fundActive
    }

    method SimulateShock()
      requires Valid()
      modifies this`households, this`transfers, this`systemLogs, this`emergencyFundActive
      ensures Valid()
      ensures ShockApplied()
    {
      var ot := ShockTarget(households);
      if ot.None? {
        return;
      }
      var step := ShockOutcome(households, ot.value, aiRedistributionEnabled, transfers, systemLogs);
      InstallShock(step);
    }

    /** Installs new households, transfers and logs in one step. */
    method Install(hs: seq<Household>, tr: seq<Transfer>, logs: seq<SystemLog>)
      requires Valid()
      requires |hs| > 0 && Settled(hs) && |tr| <= MAX_TRANSFERS
      modifies this`households, this`transfers, this`systemLogs
      ensures Valid()
      ensures households == hs && transfers == tr && systemLogs == logs
    {
      households, transfers, systemLogs := hs, tr, logs;
    }

    /** Installs the fields a shock rewrites. */
    method InstallShock(step: ShockStep)
      requires Valid()
      requires |step.households| > 0 && Settled(step.households) && |step.transfers| <= MAX_TRANSFERS
      modifies this`households, this`transfers, this`systemLogs, this`emergencyFundActive
      ensures Valid()
      ensures households == step.households && transfers == step.transfers
      ensures systemLogs == step.logs && emergencyFundActive == step.fundActive
    {
      households, transfers, systemLogs, emergencyFundActive :=
        step.households, step.transfers, step.logs, step.fundActive;
    }

    /** An alias of `SimulateShock`. */
    method TriggerShock()
      requires Valid()
      modifies this`households, this`transfers, this`systemLogs, this`emergencyFundActive
      ensures Valid()
      ensures ShockApplied()
    {
      SimulateShock();
    }

    /** One simulation cycle: an optional automatic redistribution (15% of
        the best donor's credits, at most 25), then each household's drift
        (`drift[i]` holds the random terms of household `i`), then the
        statistics of the new state. */
    method RunCycle(drift: seq<Drift>)
      requires Valid()
      requires |drift| == |households|
      requires forall i :: 0 <= i < |drift| ==> DriftInRange(drift[i], households[i].laborHours)
      modifies this`households, this`transfers, this`trendData, this`cycle,
               this`householdsExitedThisCycle, this`totalPovertyReduction, this`systemLogs
      ensures Valid()
      ensures var plan := if old(aiRedistributionEnabled) then CyclePlan(old(households)) else None;
              var after := CycleHouseholds(old(households), old(aiRedistributionEnabled), drift);
              && households == after
              && transfers == (if plan.Some? then Take([plan.value] + old(transfers), MAX_TRANSFERS)
                               else old(transfers))
              && trendData == LastN(old(trendData) + [TrendPointFor(after, old(cycle))], MAX_TREND_POINTS)
              && householdsExitedThisCycle == CountExited(after)
              && totalPovertyReduction
                 == old(totalPovertyReduction) + PovertyReduction(old(trendData), PovertyRate(after))
              && systemLogs == Take((if plan.Some? then [SystemLog(RedistributionEvent, Some(plan.value.toId))]
                                     else [])
                                    + [SystemLog(InfoEvent, None)] + old(systemLogs), MAX_LOGS)
      ensures cycle == old(cycle) + 1
      ensures totalPovertyReduction >= old(totalPovertyReduction)
      ensures |trendData| > 0 && trendData[|trendData| - 1].cycle == old(cycle)
      ensures householdsExitedThisCycle <= |households|
    {
      var before := households;
      var plan := if aiRedistributionEnabled then CyclePlan(before) else None;
      var newTransfers := if plan.Some? then Take([plan.value] + transfers, MAX_TRANSFERS) else transfers;
      var newLogs := if plan.Some? then [SystemLog(RedistributionEvent, Some(plan.value.toId))] else [];
      var logs := Take(newLogs + [SystemLog(InfoEvent, None)] + systemLogs, MAX_LOGS);
      var after := CycleHouseholds(before, aiRedistributionEnabled, drift);
      var point := TrendPointFor(after, cycle);
      var reduction := PovertyReduction(trendData, PovertyRate(after));
      var trend := LastN(trendData + [point], MAX_TREND_POINTS);
      InstallCycle(after, newTransfers, trend, CountExited(after), totalPovertyReduction + reduction, logs);
    }

    /** Installs the state a cycle produces and advances the counter. */
    method InstallCycle(hs: seq<Household>, tr: seq<Transfer>, trend: seq<PovertyTrendPoint>,
                        exited: nat, reduction: real, logs: seq<SystemLog>)
      requires Valid()
      requires |hs| > 0 && Settled(hs) && |tr| <= MAX_TRANSFERS && |trend| <= MAX_TREND_POINTS
      requires reduction >= 0.0
      modifies this`households, this`transfers, this`trendData, this`cycle,
               this`householdsExitedThisCycle, this`totalPovertyReduction, this`systemLogs
      ensures Valid()
      ensures households == hs && transfers == tr && trendData == trend && cycle == old(cycle) + 1
      ensures householdsExitedThisCycle == exited
      ensures totalPovertyReduction == reduction && systemLogs == logs
    {
      households, transfers, trendData, cycle := hs, tr, trend, cycle + 1;
      householdsExitedThisCycle, totalPovertyReduction, systemLogs := exited, reduction, logs;
    }

    /** Activates a community-engagement program in `sector`: one new
        active job per template, with the generated `ids`. */
    method ActivateProgram(sector: string, ids: seq<string>)
      requires |ids| == |JOB_TEMPLATES|
      modifies this`cecsJobs, this`systemLogs
      ensures cecsJobs == old(cecsJobs) + NewJobs(sector, ids)
      ensures |cecsJobs| == |old(cecsJobs)| + |JOB_TEMPLATES|
      ensures systemLogs == [SystemLog(InfoEvent, None)] + old(systemLogs)
    {
      cecsJobs := cecsJobs + NewJobs(sector, ids);
      systemLogs := [SystemLog(InfoEvent, None)] + systemLogs;
    }

    /** Records a proof of work: every job with the id becomes verified and
        assigned to the household, whatever its status was. */
    method SubmitJobProof(jobId: string, householdId: string, proof: string)
      modifies this`cecsJobs
      ensures cecsJobs == SubmitProof(old(cecsJobs), jobId, householdId, proof)
    {
      cecsJobs := SubmitProof(cecsJobs, jobId, householdId, proof);
    }

    /** Pays out a job: when the first job with the id has a (non-empty)
        assignee, that household receives the job's credits and every job
        with the id is completed. The job's status is not checked, so a
        completed job pays again. */
    method VerifyJob(jobId: string)
      requires Valid()
      modifies this`households, this`cecsJobs, this`systemLogs
      ensures Valid()
      ensures var j := JobIndex(old(cecsJobs), jobId);
              if j.None? || old(cecsJobs)[j.value].assignedTo.None?
                 || old(cecsJobs)[j.value].assignedTo.value == ""
              then households == old(households) && cecsJobs == old(cecsJobs) && systemLogs == old(systemLogs)
              else
                var job := old(cecsJobs)[j.value];
                && households == InitializeHouseholds(PayHousehold(old(households), job.assignedTo.value,
                                                                   job.credits))
                && cecsJobs == CompleteJob(old(cecsJobs), jobId)
                && systemLogs == [SystemLog(StabilizationEvent, None)] + old(systemLogs)
    {
      var j := JobIndex(cecsJobs, jobId);
      if j.None? || cecsJobs[j.value].assignedTo.None? || cecsJobs[j.value].assignedTo.value == "" {
        return;
      }
      var job := cecsJobs[j.value];
      var before := households;
      var paid := PayHousehold(before, job.assignedTo.value, job.credits);
      households := InitializeHouseholds(paid);
      RecalcSettles(paid);
      cecsJobs := CompleteJob(cecsJobs, jobId);
      systemLogs := [SystemLog(StabilizationEvent, None)] + systemLogs;
    }
  }
}

=== FILE: types.dfy ===
/** Record shapes of the simulation: households, tasks and their bids,
    credit transfers, trend points, system logs and community-engagement
    (CECS) jobs. Identifiers, names and free text stay strings; every
    amount of credits, hours or score is an exact real. */
module Types {

  datatype Option<T> = None | Some(value: T)

  /** A node of the community network. `povertyIndex` and
      `creditDeficitRatio` are derived fields; the two optional flags of the
      original record are booleans whose "absent" value is `false`. */
  datatype Household = Household(
    id: string,
    name: string,
    credits: real,
    laborHours: real,
    incomeInstabilityScore: real,
    dependencyRatio: real,
    shockExposureRisk: real,
    centralityScore: real,
    povertyIndex: real,
    creditDeficitRatio: real,
    connections: seq<string>,
    sector: string,
    lastShocked: bool,
    exitedPovertyThisCycle: bool)

  datatype Difficulty = Low | Medium | High

  datatype TaskStatus = Open | Allocated | Completed

  /** A bid; its wall-clock timestamp is not modelled. */
  datatype Bid = Bid(householdId: string, amount: real, allocationScore: real)

  datatype Task = Task(
    id: string,
    title: string,
    description: string,
    baseCreditRequirement: real,
    stabilityImpact: real,
    difficulty: Difficulty,
    category: string,
    bids: seq<Bid>,
    allocatedTo: Option<string>,  // `allocated` in the original record
    equityOverride: bool,
    status: TaskStatus)

  /** A recorded credit transfer; the timestamp is not modelled. */
  datatype Transfer = Transfer(fromId: string, toId: string, amount: real, aiSuggested: bool)

  datatype PovertyTrendPoint = PovertyTrendPoint(
    cycle: int,
    povertyRate: real,
    extremePovertyCount: nat,
    resilienceScore: int,
    avgPovertyIndex: real)

  /** The `type` of a system log entry. */
  datatype LogType =
    | EquityOverrideEvent
    | ShockEvent
    | RedistributionEvent
    | LaborEvent
    | BidEvent
    | TransferEvent
    | StabilizationEvent
    | InfoEvent

  /** A system log entry: its kind and the household it names, if any.
      Ids, timestamps and message text are not modelled. */
  datatype SystemLog = SystemLog(kind: LogType, householdId: Option<string>)

  datatype NetworkEdge = NetworkEdge(source: string, target: string, strength: real)

  datatype JobCategory = Environment | Sanitation | Social | Infrastructure

  datatype JobStatus = Pending | Active | Verified | Completed

  datatype ProofKind = Photo | Gps | Attendance

  datatype CECSJob = CECSJob(
    id: string,
    title: string,
    category: JobCategory,
    description: string,
    credits: real,
    cashPayment: real,
    coupons: seq<string>,
    sector: string,
    status: JobStatus,
    proofRequired: Option<ProofKind>,
    assignedTo: Option<string>,
    submissionProof: Option<string>)
}
